=== FILE: README.md ===
# SMS list gateway: command lexer and list operations

This project models the core of an SMS gateway that keeps small named text
lists. It has two parts.

- The message `lr, groceries, 2, milk` is split on commas into typed tokens.
  The first segment is lower-cased and trimmed. It gives a command character
  and an optional subcommand character. Every later segment becomes a trimmed
  argument. The tokens are then resolved against a fixed registry: `la`
  (append), `lm` (make), `lp` (print) and `lr` (replace).
- The four list operations work on an object store. Each list is one text
  object under the key `lists/<name>.txt`. The text holds one line per
  newline-terminated piece.

The object store is a `map<string, string>` from key to text. A key missing
from the map is an object the store cannot find. Every operation takes the
store and its string arguments. It returns the store afterwards with a result
code (`Success`, `UserError`) and a message.

Modules:

- `Optional` (`optional.dfy`): the option type.
- `Text` (`text.dfy`): the JavaScript string behaviour the code relies on.
  That is `trim` with ECMAScript's white-space set, ASCII `toLowerCase`,
  `split` and `join` on one character, `filter`, and decimal rendering and
  parsing. It also proves the round trips between them.
- `Lexer` (`lexer.dfy`): `parseTokens`, `parseCommand` and the registry.
- `JsNumbers` (`numbers.dfy`): JavaScript's `Number()` on strings, as
  section 7.1.4.1 of ECMA-262 defines it, which reads the replace index. It
  also covers the template-literal rendering of the number in the reply, and
  the round trip between the two.
- `Lists` (`list.dfy`): `getListKey`, `isNumberString`,
  `mapLines`, `listMake`, `listPrint`, `listAppend` and `listReplace`. It
  also holds the lemmas relating stored text to the lines a list shows.
- `ReplaceSlots` (`replace_slots.dfy`) has two halves:
  - what `listReplace` does to stored lists, as the code is written (see
    Findings);
  - `ListReplaceVisible`, replacement counted over the shown lines, with its
    intended properties proved.
- `Gateway` (`gateway.dfy`): how one message runs from tokenizing through
  resolving to the bound list operation. It includes whole-message
  scenarios.

`Gateway.Run` dispatches `lr` to `Lists.ListReplace`, the operation as
written. `ReplaceSlots.ListReplaceVisible` is the corrected operation. It is
modelled alongside, and each finding proves a property of it.

### Where the code and the documented behaviour differ

The model follows the code in each case.

- Append takes exactly one line: more than two arguments is "Too many
  arguments supplied.", and a missing or blank line is an error. It does not
  filter several arguments or report a count.
- Print's message ends with `~` and no newline, so an empty list prints `~`
  and two lines print `1: a\n2: b\n~`.
- Make and Print take exactly one argument.
- Replace addresses the newline-separated pieces of the stored text. It does
  not address the lines a list shows. The "last line" is the empty piece
  after the final newline (see Findings).
- Replace's range check is against the piece count, not the shown line count.
  Its success message reports the resolved piece number and the replacement
  text with its newline.

## Model

| member | source | states |
|---|---|---|
| Text.Split | gateway/lexer.ts:26 | `split` on one character gives exactly one more piece than there are separators, and no piece contains the separator |
| Text.JoinSplit | gateway/applications/list.ts:249-251 | joining the pieces of a split with the same separator gives back the original text |
| Text.SplitJoin | gateway/applications/list.ts:249-251 | splitting a join of separator-free pieces gives back the pieces |
| Text.JoinCutPiece | gateway/applications/list.ts:248-251 | a piece holding the separator joins like two pieces cut at that separator |
| Text.TrimBlank | gateway/applications/list.ts:144 | `trim` returns a middle part of the text and everything it cuts from either end is white space; it gives the empty string exactly when the text is all white space; otherwise the result neither starts nor ends with white space |
| Text.TrimIdempotent | gateway/lexer.ts:55-58 | trimming a trimmed argument changes nothing |
| Text.Filter | gateway/applications/list.ts:250 | a filtered sequence is no longer than the input and every element passes the test |
| Text.FilterAfterUpdate | gateway/applications/list.ts:248-251 | writing a dropped value into one slot and filtering removes exactly that slot; writing a kept value changes only that slot |
| Text.NatToString | gateway/applications/list.ts:110 | a rendered whole number is a non-empty digit string with no leading zero |
| Text.DecimalRoundTrip | gateway/applications/list.ts:205 | reading back the decimal rendering of a number gives the number |
| Lexer.Segments | gateway/lexer.ts:26 | the input has one segment more than it has commas |
| Lexer.ParseTokens | gateway/lexer.ts:23-61 | tokenizing fails exactly when the lower-cased, trimmed head is not one or two characters long, and the error is then "First segment too long." |
| Lexer.SingleLetterHead | gateway/lexer.ts:33-39 | a one-character head gives a single Command token holding it, followed only by Argument tokens |
| Lexer.TwoLetterHead | gateway/lexer.ts:40-49 | a two-character head gives Command(first) then Subcommand(second), followed only by Argument tokens |
| Lexer.HeadRejections | gateway/lexer.ts:26-52 | the empty input and any input starting with a comma give "First segment too long."; "Missing first segment." is never returned |
| Lexer.ArgumentsFollowSegments | gateway/lexer.ts:54-60 | there are as many Argument tokens as commas, and each holds its segment trimmed with letter case unchanged |
| Lexer.ArgumentTexts | gateway/lexer.ts:83-90 | the trailing tokens yield their texts in order exactly when every one of them is an Argument |
| Lexer.Lookup | gateway/lexer.ts:93-109 | the registry resolves exactly the command `l` with subcommand `a`, `m`, `p` or `r`, each to its own operation |
| Lexer.ParseCommand | gateway/lexer.ts:63-117 | no tokens and a first token that is not a Command are errors; the non-argument error occurs exactly when a trailing token is not an Argument; a well-shaped sequence whose command pair the registry does not know gives "Application function not found. You tried an invalid command."; resolution succeeds exactly when the shape is right and the registry knows the pair, and then gives the operation and the argument texts in order |
| Lexer.ParsedTokensResolve | gateway/lexer.ts:63-117 | on any tokenizer output the non-argument error never arises; resolution succeeds exactly when the head is `la`, `lm`, `lp` or `lr`; the arguments are the trimmed later segments, one per comma, in order |
| Lists.GetListKey | gateway/applications/list.ts:15-17 | the key is the name between the prefix `lists/` and the suffix `.txt` |
| Lists.ListKeyInjective | gateway/applications/list.ts:15-17 | two names share a key only when they are equal |
| Lists.MatchesDigits | gateway/applications/list.ts:19-21 | the digits-only test holds exactly when every character is `0`-`9` |
| Lists.IsNumberString | gateway/applications/list.ts:19-21 | a number string is non-empty and all ASCII digits, and every such string is one |
| JsNumbers.TrimUnpadded | gateway/applications/list.ts:205 | text that neither starts nor ends with white space is unchanged by `trim`, so `Number` reads a digit string whole |
| JsNumbers.Scaled | gateway/applications/list.ts:215 | a mantissa and a decimal exponent give the number they denote, in canonical form: a whole number, or a fraction with no trailing zero |
| JsNumbers.ToNumber | gateway/applications/list.ts:214-216 | `Number` always gives a canonical value; a digit string reads as its decimal value and a blank string reads as 0 |
| JsNumbers.NumberTextRoundTrip | gateway/applications/list.ts:215-261 | reading the rendering of any whole number, fraction, infinity or `NaN` with `Number` gives back that value |
| JsNumbers.IndexForms | gateway/applications/list.ts:215 | `2.0`, `1e0`, `0x2` and ` 12 ` read as whole numbers, `1.5` and `-0.5` as fractions, `Infinity` as infinite, and a word as `NaN` |
| JsNumbers.AddNumberInverse | gateway/applications/list.ts:215-261 | subtracting one for the slot and adding one for the reply gives back the number that was read |
| JsNumbers.ShiftIsProduct | gateway/applications/list.ts:238 | the comparison a fraction `m / 10^k` gets in the range check, `m >= Shift(n, k)`, is the comparison `m >= n * 10^k`, that is, the fraction is at least `n` |
| JsNumbers.DigitsSplit | gateway/applications/list.ts:261 | the integer part and the `k` zero-padded decimal places written for a fraction recombine to its digits, so the reply shows the fraction's exact value |
| Lists.MapLines | gateway/applications/list.ts:23-35 | the empty text maps to the empty text, and any other text maps to text ending in a newline |
| Lists.MapLinesOfSerialized | gateway/applications/list.ts:23-35 | on a stored list the callback sees exactly the list's lines, numbered from 0, joined by newlines with one trailing newline |
| Lists.SplitSerialized | gateway/applications/list.ts:151-160 | the pieces of a stored list are its lines followed by one empty piece |
| Lists.VisibleSerialized | gateway/applications/list.ts:29-31 | reading the shown lines of a stored list gives back the list |
| Lists.SerializeVisibleStable | gateway/applications/list.ts:29-31 | every shown line is non-empty and newline-free, and storing the shown lines and reading them again changes nothing |
| Lists.ListMake | gateway/applications/list.ts:56-82 | no name and extra arguments are the two user errors; one name replies "<name>: created list.", stores the empty text (the empty list, which shows no lines) under that list's key, adds no other key, and leaves every other object alone |
| Lists.ListPrint | gateway/applications/list.ts:87-123 | printing never changes the store; the arity errors are as for make; it succeeds exactly when the list exists, and a missing list is the user error "Could not find the object."; every failure is a user error; on any stored text the reply is the text's lines numbered from 1 by `mapLines`, followed by `~` |
| Lists.PrintAfterMake | gateway/applications/list.ts:72-115 | printing a just-made list succeeds with exactly `~` |
| Lists.PrintStoredList | gateway/applications/list.ts:103-115 | printing a stored list numbers its lines from 1, one per output line, then `~` |
| Lists.ListAppend | gateway/applications/list.ts:128-179 | no name is "List name not given.", more than two arguments is "Too many arguments supplied.", a missing or blank line is "Cannot append a blank line. Supply a line.", and a missing list is "Could not append list <name>"; every failure is a user error and leaves the store unchanged; append succeeds exactly when there are two arguments, the second not blank, and the list exists, and then the new text is the old text plus the line plus a newline, nothing else changes, and the reply is "<name>: added line <line>" with that newline |
| Lists.AppendToStoredList | gateway/applications/list.ts:151-166 | appending to a stored list stores the list with the line added at the end, and it then shows exactly those lines |
| Lists.ListReplace | gateway/applications/list.ts:184-270 | no name is "List name not given.", more than three arguments is "Too many arguments supplied.", and a missing list is "Could not replace line in list <name>"; every failure is a user error and leaves the store as it was; a success needs an existing list and writes only that list's object |
| Lists.ReplaceArgumentsResolve | gateway/applications/list.ts:194-223 | one argument means delete the last slot; a digit second argument n means delete slot n-1; any other second argument overwrites the last slot with it plus a newline; three arguments overwrite slot `Number(args[1])`-1 with the text plus a newline; more is an error |
| Lists.PiecesAreNotMarkers | gateway/applications/list.ts:248-251 | no piece of a split text equals the lone-newline deletion marker, so the filter removes only the slot that was written |
| Lists.ReplaceRangeCheck | gateway/applications/list.ts:232-262 | the last slot is the last piece and always passes; on an existing list with a valid argument count, replace fails with "Invalid replace line index." exactly when the resolved index is below 0 or at least the piece count by value (an infinity always is, `NaN` never), and succeeds exactly when it is not |
| Lists.ReplaceRewrites | gateway/applications/list.ts:245-257 | delete stores the pieces without the target joined by newlines; overwrite stores them with the target replaced; other pieces keep value and order; an index that is not a whole number (`NaN`, or a fraction in range) stores the old text |
| Lists.ReplaceReply | gateway/applications/list.ts:259-262 | after a successful replace at a whole index, the reply is "<name>: replaced line <index + 1> with <text>", the text with its newline |
| Lists.ZeroIndexIsLast | gateway/applications/list.ts:201-217 | a user index of 0 behaves exactly like naming no index |
| ReplaceSlots.DeleteLastKeepsLines | gateway/applications/list.ts:196-200 | `lr,name` on a stored non-empty list succeeds but the list still shows every line |
| ReplaceSlots.DeleteLineAt | gateway/applications/list.ts:201-207 | `lr,name,i` on a stored list, with `i` one of its line numbers, succeeds and stores the list without line `i`, every other line kept in order |
| ReplaceSlots.DeleteLastStoresJoin | gateway/applications/list.ts:232-251 | `lr,name` on a stored list removes only its final newline |
| ReplaceSlots.DeleteLastReply | gateway/applications/list.ts:259-262 | as written, `lr,name` on a stored list of n lines succeeds and replies "replaced line n + 1", a line the list does not show |
| ReplaceSlots.AppendAfterDeleteLastMerges | gateway/applications/list.ts:151-160 | after `lr,name`, an append joins the new text onto the old last line |
| ReplaceSlots.OverwriteLastAppends | gateway/applications/list.ts:208-212 | `lr,name,text` adds the text as a new last line instead of replacing the last one |
| ReplaceSlots.OverwriteAtPiece | gateway/applications/list.ts:214-251 | `lr,name,i,text` writes the text into piece i and an empty piece right after it |
| ReplaceSlots.OverwriteLeavesEmptyPiece | gateway/applications/list.ts:214-251 | on a stored list `lr,name,i,text` shows the intended lines, but the stored pieces gain an empty one after line i |
| ReplaceSlots.OverwriteTwiceInserts | gateway/applications/list.ts:214-251 | on the list a, b, overwriting line 1 with z and then line 2 with y shows z, y, b |
| ReplaceSlots.NonWholeIndexIsSilent | gateway/applications/list.ts:214-261 | a three-argument replace whose index `Number` does not read as a whole number, and which passes the range check, succeeds, reports that number, and leaves the list unchanged |
| ReplaceSlots.NonNumericIndexIsSilent | gateway/applications/list.ts:214-261 | a three-argument replace whose index reads as `NaN` succeeds with "replaced line NaN" and leaves the list unchanged |
| ReplaceSlots.FractionalIndexIsSilent | gateway/applications/list.ts:214-261 | a three-argument replace with the index `1.5` succeeds with "replaced line 1.5" on every list and leaves it unchanged |
| ReplaceSlots.VisibleIndex | gateway/applications/list.ts:234-243 | the last-line marker resolves to the last shown line, and exactly when the list has one; any other index resolves exactly when it is a whole number below the shown line count, and then to itself |
| ReplaceSlots.ListReplaceVisible | gateway/applications/list.ts:184-270 | the corrected replace keeps the arity and missing-list errors of the original; every failure is a user error that leaves the store unchanged, and a success writes only that list |
| ReplaceSlots.VisibleRangeCheck | gateway/applications/list.ts:232-243 | on an existing list with at most three arguments, the corrected replace succeeds exactly when the index resolves to a shown line, and otherwise replies "Invalid replace line index." with the store unchanged |
| ReplaceSlots.VisibleReplaceEdits | gateway/applications/list.ts:196-216 | corrected replace: the last-line marker is the last shown line; delete removes exactly that line; a one-line overwrite replaces exactly it; the stored pieces are the shown lines and one empty piece |
| ReplaceSlots.VisibleDeleteLast | gateway/applications/list.ts:196-200 | corrected `lr,name` stores the list without its last line |
| ReplaceSlots.VisibleOverwriteLast | gateway/applications/list.ts:208-212 | corrected `lr,name,text` stores the list with its last line replaced |
| ReplaceSlots.VisibleOverwriteAt | gateway/applications/list.ts:214-216 | corrected `lr,name,i,text` stores the list with line i replaced and no empty piece |
| ReplaceSlots.VisibleOverwriteTwice | gateway/applications/list.ts:214-216 | corrected: on the list a, b, overwriting line 1 with z and then line 2 with y stores exactly z, y |
| ReplaceSlots.VisibleRejectsNonWholeIndex | gateway/applications/list.ts:238-243 | corrected: an index that is not a whole number (a word, a fraction, an infinity) is rejected with "Invalid replace line index." and the store is unchanged |
| Gateway.Run | gateway/lexer.ts:93-109 | whichever operation the registry bound, a failure leaves the store unchanged, a success writes only the object of the list named by the first argument, and print writes nothing |
| Gateway.Evaluate | gateway/resolver.ts:41-70 | a message is rejected by the tokenizer exactly when its head is not one or two characters, runs exactly when its head is a registered name, and otherwise fails to resolve with "Application function not found…"; a run writes at most the list named by the second segment |
| Gateway.EvaluateRegistered | gateway/lexer.ts:93-117 | a message with a registered head runs that operation on the trimmed later segments, in order |
| Gateway.MakeThenPrint | gateway/applications/list.ts:72-115 | the messages `lm,foo` then `lp,foo` print exactly `~` |
| Gateway.MakeAppendAppendPrint | gateway/applications/list.ts:56-170 | the messages `lm,foo`, `la,foo,a`, `la,foo,b`, `lp,foo` print `1: a\n2: b\n~` |

## Left out

- Object-store I/O is left out: `s3ObjectToString`, the S3 client, the bucket and region settings. The store is a map. A read fails exactly when the key is missing, and a write never fails.
- Lists.ListMake: the write that creates the list is outside any error handler in the code. A failing write would surface as an uncaught error; the model's writes do not fail.
- The asynchronous structure and the race between a read and the following write are left out. Each operation is one atomic step.
- `gateway/resolver.ts` beyond the parse, resolve and run sequence is left out: the Lambda handler, the Twilio markup, `parseRequestBody`, the phone-number authorization check, logging, and the wording of the reply prefixes. `Gateway.Evaluate` returns the reply as data.
- The infrastructure files `lib/marcus-stack.ts` and `bin/marcus.ts`, and the type declarations in `gateway/sms-lambda-types.ts`, are not part of this model.
- Text.ToLower: lowers ASCII letters only. JavaScript's `toLowerCase` also lowers other Unicode letters.
- Lexer.ParseTokens: head length counts Unicode scalar values. JavaScript counts UTF-16 code units, so a head holding one character outside the Basic Multilingual Plane is one character here and two there.
- JsNumbers.ToNumber: values are exact decimals, not binary floating point. JavaScript rounds to the nearest double, so four kinds of input differ.
  - Digits beyond double precision: `1.0000000000000001` and whole numbers above 2^53 round in JavaScript, so they can address another slot there. Here they keep their exact value.
  - Underflow: `1e-400` is 0 in JavaScript, so as a replace index it becomes -1, the last slot. Here it is a tiny fraction whose index is below 0, and the range check rejects it.
  - Overflow: `1e400` is `Infinity` in JavaScript and a huge whole number here. The range check rejects both.
  - Values near 0: the code subtracts 1 from the index, and in JavaScript that difference is rounded too. For a value smaller in size than about 5.5e-17 (positive) or 1.1e-16 (negative), such as `1e-17` or `-1e-17`, the difference is exactly -1, so the index becomes the last slot. Here the difference is a fraction below -1 or between -1 and 0, and the range check rejects it.
- JsNumbers.NumberText: a fraction is written with its exact decimal digits. JavaScript writes the shortest decimal that reads back as the same double, and uses exponent notation from 10^21 up and below 10^-6. The only numbers rendered are replace positions that passed the range check. Those are at least 1, and reaching 10^21 would take as many pieces.
- Lists.MapLines: the callback receives the line and its index. The third argument, the array, is not passed because no caller uses it.

## Findings

| source | as written | input that shows it | evidently intended | confidence | as-written member | corrected member |
|---|---|---|---|---|---|---|
| gateway/applications/list.ts:196-200 | deleting "the last line" targets index `listLines.length - 1`. That is the empty piece after the final newline, so only the newline is removed. | list `s` stored as `a\nb\n`, message `lr,s` | the last shown line (`b`) is deleted | high (not executed) | ReplaceSlots.DeleteLastKeepsLines | ReplaceSlots.VisibleDeleteLast |
| gateway/applications/list.ts:208-212 | "replace the last line" writes into the empty piece after the final newline, so the text is added as a new line | list `s` stored as `a\nb\n`, message `lr,s,x` | the list becomes `a`, `x` | high (not executed) | ReplaceSlots.OverwriteLastAppends | ReplaceSlots.VisibleOverwriteLast |
| gateway/applications/list.ts:214-216 | an overwrite stores the text plus a newline in one piece. The stored text gains an empty piece, so later piece numbers no longer match the printed line numbers. | list `s` stored as `a\nb\n`, messages `lr,s,1,z` then `lr,s,2,y` | the list becomes `z`, `y` | high (not executed) | ReplaceSlots.OverwriteTwiceInserts | ReplaceSlots.VisibleOverwriteTwice |
| gateway/applications/list.ts:214-261 | a three-argument index that `Number` does not read as a whole number addresses no slot. `NaN` (from a word) always passes the range check, and so does a fraction within the pieces. The reply reports that number and the list is stored unchanged. | list `s` stored as `a\nb\n`, message `lr,s,x,y` or `lr,s,1.5,y` | the index is rejected as invalid | medium (not executed) | ReplaceSlots.NonWholeIndexIsSilent | ReplaceSlots.VisibleRejectsNonWholeIndex |

=== FILE: gateway.dfy ===
/**
 The path of one message through the gateway: the text is tokenized, the
 tokens are resolved against the registry, and the resolved list operation
 runs with the resolved arguments against the object store.
 */
module Gateway {
  import opened Text
  import opened Optional
  import opened Lexer
  import Lists

  /** What became of a message: it failed to tokenize, it failed to resolve,
      or it ran and produced an outcome. */
  datatype Reply =
    | TokenError(message: string)
    | CommandError(message: string)
    | Ran(outcome: Lists.Outcome)

  /** Run the function the registry bound to an operation. Whatever the
      operation, a failure leaves the store as it was, a success writes
      only the object of the list named by the first argument, and printing
      writes nothing. */
  function Run(store: Lists.Store, call: CommandCall): (r: Lists.Outcome)
    ensures r.result.code != Lists.Success ==> r.store == store
    ensures r.result.code == Lists.Success ==>
      |call.args| >= 1 && Lists.OnlyKeyWritten(store, r.store, Lists.GetListKey(call.args[0]))
    ensures call.fun == ListPrint ==> r.store == store
  {
    match call.fun
    case ListAppend => Lists.ListAppend(store, call.args)
    case ListMake => Lists.ListMake(store, call.args)
    case ListPrint =>
      var r := Lists.ListPrint(store, call.args);
      if r.result.code == Lists.Success then
        assert store[Lists.GetListKey(call.args[0]) := store[Lists.GetListKey(call.args[0])]] == store;
        r
      else r
    case ListReplace => Lists.ListReplace(store, call.args)
  }

  /** Tokenize, resolve and run one message. A message is rejected by the
      tokenizer exactly when its head is not one or two characters long,
      rejected by the resolver exactly when its head is one of those lengths
      but not a registered name, and run otherwise; a run writes at most the
      object of the list named by the second segment. */
  function Evaluate(store: Lists.Store, input: string): (r: Reply)
    ensures r.TokenError? <==> |HeadSegment(input)| != 1 && |HeadSegment(input)| != 2
    ensures r.TokenError? ==> r.message == FirstSegmentTooLong
    ensures r.Ran? <==> HeadSegment(input) in {"la", "lm", "lp", "lr"}
    ensures r.CommandError? ==> r.message == FunctionNotFound
    ensures r.Ran? && r.outcome.result.code != Lists.Success ==> r.outcome.store == store
    ensures r.Ran? && r.outcome.result.code == Lists.Success ==>
      Count(input, ',') >= 1 &&
      Lists.OnlyKeyWritten(store, r.outcome.store, Lists.GetListKey(Trim(Segments(input)[1])))
  {
    match ParseTokens(input)
    case ParseError(message) => TokenError(message)
    case Parsed(tokens) =>
      ParsedTokensResolve(input);
      ParseTokensValue(input);
      match ParseCommand(tokens)
      case ParseError(message) => CommandError(message)
      case Parsed(call) => Ran(Run(store, call))
  }

  /** A message `<head>,<a>` whose pieces hold no comma splits into exactly
      those two segments. */
  lemma TwoSegments(head: string, a: string)
    requires ',' !in head && ',' !in a
    ensures Segments(head + "," + a) == [head, a]
  {
    assert Join([head, a], ',') == head + "," + a;
    SplitJoin([head, a], ',');
  }

  /** A message `<head>,<a>,<b>` whose pieces hold no comma splits into
      exactly those three segments. */
  lemma ThreeSegments(head: string, a: string, b: string)
    requires ',' !in head && ',' !in a && ',' !in b
    ensures Segments(head + "," + a + "," + b) == [head, a, b]
  {
    assert [head, a, b][1..] == [a, b];
    assert Join([a, b], ',') == a + "," + b;
    assert Join([head, a, b], ',') == head + "," + a + "," + b;
    SplitJoin([head, a, b], ',');
  }

  /** The four registered heads survive lower-casing and trimming as they
      are. */
  lemma ListHead(sub: char)
    requires sub in "ampr"
    ensures Trim(ToLower(['l', sub])) == ['l', sub]
  {
    var h := ['l', sub];
    assert ToLower(h) == h;
    assert SkipSpaces(h, 0) == 0;
    assert SkipSpacesBack(h, 0, 2) == 2;
  }

  /** Every text of a sequence, trimmed. */
  function TrimAll(xs: seq<string>): (r: seq<string>)
    ensures |r| == |xs|
    ensures forall k :: 0 <= k < |r| ==> r[k] == Trim(xs[k])
  {
    seq(|xs|, k requires 0 <= k < |xs| => Trim(xs[k]))
  }

  /** A message whose head is a registered name runs the registered
      operation on the trimmed segments after the head, in order. */
  lemma EvaluateRegistered(store: Lists.Store, input: string, sub: char)
    requires sub in "ampr" && HeadSegment(input) == ['l', sub]
    ensures Evaluate(store, input) ==
      Ran(Run(store, CommandCall(Lookup("l", Some([sub])).value, TrimAll(Segments(input)[1..]))))
  {
    ResolveRegistered(input, sub);
  }

  /** A message whose head is a registered name resolves to the registered
      operation and the trimmed segments after the head. */
  lemma ResolveRegistered(input: string, sub: char)
    requires sub in "ampr" && HeadSegment(input) == ['l', sub]
    ensures ParseTokens(input).Parsed?
    ensures ParseCommand(ParseTokens(input).value) ==
      Parsed(CommandCall(Lookup("l", Some([sub])).value, TrimAll(Segments(input)[1..])))
  {
    ParsedTokensResolve(input);
    ParseTokensValue(input);
    var tokens := ParseTokens(input).value;
    var head := HeadSegment(input);
    assert head[..1] == "l" && head[1..2] == [sub];
    assert tokens[0] == Token(Command, "l");
    assert tokens[1] == Token(Subcommand, [sub]);
    assert SubcommandText(tokens) == Some([sub]);
    var args := ParseCommand(tokens).value.args;
    assert args == TrimAll(Segments(input)[1..]);
  }

  /** `l<sub>,<name>` runs the registered operation on the one argument
      `name`, trimmed. */
  lemma EvaluateOneArgument(store: Lists.Store, sub: char, name: string)
    requires sub in "ampr" && ',' !in name
    ensures var input := ['l', sub] + "," + name;
      Evaluate(store, input) ==
        Ran(Run(store, CommandCall(Lookup("l", Some([sub])).value, [Trim(name)])))
  {
    var input := ['l', sub] + "," + name;
    assert Segments(input) == [['l', sub], name] && HeadSegment(input) == ['l', sub] by {
      TwoSegments(['l', sub], name);
      ListHead(sub);
    }
    assert TrimAll(Segments(input)[1..]) == [Trim(name)] by {
      assert Segments(input)[1..] == [name];
    }
    EvaluateRegistered(store, input, sub);
  }

  /** `l<sub>,<name>,<text>` runs the registered operation on the two
      arguments `name` and `text`, trimmed. */
  lemma EvaluateTwoArguments(store: Lists.Store, sub: char, name: string, text: string)
    requires sub in "ampr" && ',' !in name && ',' !in text
    ensures var input := ['l', sub] + "," + name + "," + text;
      Evaluate(store, input) ==
        Ran(Run(store, CommandCall(Lookup("l", Some([sub])).value, [Trim(name), Trim(text)])))
  {
    var input := ['l', sub] + "," + name + "," + text;
    assert Segments(input) == [['l', sub], name, text] && HeadSegment(input) == ['l', sub] by {
      ThreeSegments(['l', sub], name, text);
      ListHead(sub);
    }
    assert TrimAll(Segments(input)[1..]) == [Trim(name), Trim(text)] by {
      assert Segments(input)[1..] == [name, text];
    }
    EvaluateRegistered(store, input, sub);
  }

  /** `lm,<name>` makes the list `name`, trimmed. */
  lemma EvaluateMake(store: Lists.Store, name: string)
    requires ',' !in name
    ensures Evaluate(store, "lm," + name) == Ran(Lists.ListMake(store, [Trim(name)]))
  {
    assert "lm," + name == ['l', 'm'] + "," + name;
    EvaluateOneArgument(store, 'm', name);
  }

  /** `lp,<name>` prints the list `name`, trimmed. */
  lemma EvaluatePrint(store: Lists.Store, name: string)
    requires ',' !in name
    ensures Evaluate(store, "lp," + name) == Ran(Lists.ListPrint(store, [Trim(name)]))
  {
    assert "lp," + name == ['l', 'p'] + "," + name;
    EvaluateOneArgument(store, 'p', name);
  }

  /** `la,<name>,<text>` appends the text, trimmed, to the list `name`,
      trimmed. */
  lemma EvaluateAppend(store: Lists.Store, name: string, text: string)
    requires ',' !in name && ',' !in text
    ensures Evaluate(store, "la," + name + "," + text) ==
      Ran(Lists.ListAppend(store, [Trim(name), Trim(text)]))
  {
    assert "la," + name + "," + text == ['l', 'a'] + "," + name + "," + text;
    EvaluateTwoArguments(store, 'a', name, text);
  }

  /** Making a list and then printing it prints only the end marker. */
  lemma MakeThenPrint(store: Lists.Store, name: string)
    requires ',' !in name
    ensures var made := Evaluate(store, "lm," + name);
      && made.Ran? && made.outcome.result.code == Lists.Success
      && Evaluate(made.outcome.store, "lp," + name) ==
        Ran(Lists.Outcome(made.outcome.store, Lists.CommandResult(Lists.Success, "~")))
  {
    EvaluateMake(store, name);
    EvaluatePrint(Lists.ListMake(store, [Trim(name)]).store, name);
    Lists.PrintAfterMake(store, Trim(name));
  }

  /** Trimmed text that is not empty is not blank. */
  lemma TrimmedNotBlank(s: string)
    requires Trim(s) != ""
    ensures !IsBlank(Trim(s))
  {
    TrimBlank(s);
    assert !IsSpace(Trim(s)[0]);
  }

  /** Making a list, appending two lines and printing it numbers the lines
      from 1 in the order they were appended. */
  lemma MakeAppendAppendPrint(store: Lists.Store, name: string, a: string, b: string)
    requires ',' !in name && ',' !in a && ',' !in b
    requires Lists.WellFormedLine(Trim(a)) && Lists.WellFormedLine(Trim(b))
    ensures var r1 := Evaluate(store, "lm," + name);
      && r1.Ran?
      && var r2 := Evaluate(r1.outcome.store, "la," + name + "," + a);
      && r2.Ran?
      && var r3 := Evaluate(r2.outcome.store, "la," + name + "," + b);
      && r3.Ran?
      && Evaluate(r3.outcome.store, "lp," + name) ==
        Ran(Lists.Outcome(r3.outcome.store, Lists.CommandResult(Lists.Success,
          "1: " + Trim(a) + "\n2: " + Trim(b) + "\n~")))
  {
    var n := Trim(name);
    var s1 := Lists.ListMake(store, [n]).store;
    var s2 := Lists.ListAppend(s1, [n, Trim(a)]).store;
    var s3 := Lists.ListAppend(s2, [n, Trim(b)]).store;
    EvaluateMake(store, name);
    EvaluateAppend(s1, name, a);
    EvaluateAppend(s2, name, b);
    EvaluatePrint(s3, name);
    TrimmedNotBlank(a);
    TrimmedNotBlank(b);
    MakeAppendAppendStores(store, n, Trim(a), Trim(b));
    PrintTwoLines(s3, n, Trim(a), Trim(b));
  }

  /** The store after making a list and appending two lines holds the two
      lines. */
  lemma MakeAppendAppendStores(store: Lists.Store, name: string, a: string, b: string)
    requires Lists.WellFormedLine(a) && Lists.WellFormedLine(b) && !IsBlank(a) && !IsBlank(b)
    ensures var s1 := Lists.ListMake(store, [name]).store;
      var s2 := Lists.ListAppend(s1, [name, a]).store;
      var s3 := Lists.ListAppend(s2, [name, b]).store;
      && Lists.GetListKey(name) in s3
      && s3[Lists.GetListKey(name)] == Lists.Serialize([a, b])
  {
    var key := Lists.GetListKey(name);
    var s1 := Lists.ListMake(store, [name]).store;
    assert s1[key] == Lists.Serialize([]);
    Lists.AppendToStoredList(s1, name, [], a);
    assert [] + [a] == [a];
    var s2 := Lists.ListAppend(s1, [name, a]).store;
    Lists.AppendToStoredList(s2, name, [a], b);
  }

  /** Printing a stored list of two lines. */
  lemma PrintTwoLines(store: Lists.Store, name: string, a: string, b: string)
    requires Lists.GetListKey(name) in store && store[Lists.GetListKey(name)] == Lists.Serialize([a, b])
    requires Lists.WellFormedLine(a) && Lists.WellFormedLine(b)
    ensures Lists.ListPrint(store, [name]) ==
      Lists.Succeed(store, "1: " + a + "\n2: " + b + "\n~")
  {
    Lists.PrintStoredList(store, name, [a, b]);
    var numbered := Lists.NumberedLines([a, b]);
    assert NatToString(1) == "1" && NatToString(2) == "2" by {
      assert DigitChar(1) == '1' && DigitChar(2) == '2';
    }
    assert numbered[0] == "1: " + a && numbered[1] == "2: " + b;
    assert numbered == ["1: " + a, "2: " + b];
    assert Join(["1: " + a, "2: " + b], '\n') == "1: " + a + "\n2: " + b;
  }
}

=== FILE: lexer.dfy ===
/**
 The command language: a raw message such as `lr, groceries, 2, milk` is
 split on commas into typed tokens, and the tokens are resolved against a
 fixed registry of list operations into an operation and its arguments.
 */
module Lexer {
  import opened Text
  import opened Optional

  /** The outcome of a parsing step: a value, or a plain description of why
      parsing failed. */
  datatype Parsed<T> = Parsed(value: T) | ParseError(message: string)

  datatype TokenType = Command | Subcommand | Argument

  /** The smallest lexical part of user input. */
  datatype Token = Token(kind: TokenType, text: string)

  /** The operations the registry can resolve to. */
  datatype ListOp = ListAppend | ListMake | ListPrint | ListReplace

  /** A resolved invocation: the operation and its ordered arguments. */
  datatype CommandCall = CommandCall(fun: ListOp, args: seq<string>)

  const MissingFirstSegment := "Missing first segment."
  const FirstSegmentTooLong := "First segment too long."
  const NoCommandToken := "No command token."
  const FirstNotCommand := "First token wasn't command token."
  const NonArgumentTrailing := "Non-argument type token found among trailing tokens."
  const FunctionNotFound := "Application function not found. You tried an invalid command."

  /** The comma-separated segments of the input. */
  function Segments(input: string): (r: seq<string>)
    ensures |r| == Count(input, ',') + 1
  {
    Split(input, ',')
  }

  /** The first segment, lower-cased and then trimmed. */
  function HeadSegment(input: string): string {
    Trim(ToLower(Segments(input)[0]))
  }

  /** The tokens produced by the head segment, if its length is acceptable. */
  function HeadTokens(head: string): Option<seq<Token>> {
    if |head| == 1 then Some([Token(Command, head[..1])])
    else if |head| == 2 then Some([Token(Command, head[..1]), Token(Subcommand, head[1..2])])
    else None
  }

  /** One trimmed Argument token per segment, in order. */
  function ArgumentTokens(segments: seq<string>): (r: seq<Token>)
    ensures |r| == |segments|
    ensures forall k :: 0 <= k < |r| ==> r[k] == Token(Argument, Trim(segments[k]))
  {
    seq(|segments|, k requires 0 <= k < |segments| => Token(Argument, Trim(segments[k])))
  }

  /** Convert a user's string into a sequence of tokens. */
  function ParseTokens(input: string): (r: Parsed<seq<Token>>)
    ensures r.ParseError? <==> |HeadSegment(input)| != 1 && |HeadSegment(input)| != 2
    ensures r.ParseError? ==> r.message == FirstSegmentTooLong
  {
    if |Segments(input)| < 1 then ParseError(MissingFirstSegment)
    else
      match HeadTokens(HeadSegment(input))
      case None => ParseError(FirstSegmentTooLong)
      case Some(tokens) => Parsed(tokens + ArgumentTokens(Segments(input)[1..]))
  }

  /** The texts of a run of Argument tokens, or None when some token of the
      run is not an Argument. */
  function ArgumentTexts(tokens: seq<Token>): (r: Option<seq<string>>)
    ensures r.Some? <==> forall k :: 0 <= k < |tokens| ==> tokens[k].kind == Argument
    ensures r.Some? ==> |r.value| == |tokens|
    ensures r.Some? ==> forall k :: 0 <= k < |tokens| ==> r.value[k] == tokens[k].text
  {
    if |tokens| == 0 then Some([])
    else if tokens[0].kind != Argument then None
    else
      match ArgumentTexts(tokens[1..])
      case None => None
      case Some(rest) => Some([tokens[0].text] + rest)
  }

  /** The registry: the command `l` with subcommand `a`, `m`, `p` or `r`. */
  function Lookup(command: string, subcommand: Option<string>): (r: Option<ListOp>)
    ensures r.Some? <==> command == "l" && subcommand.Some? && subcommand.value in {"a", "m", "p", "r"}
    ensures r == Some(ListAppend) <==> command == "l" && subcommand == Some("a")
    ensures r == Some(ListMake) <==> command == "l" && subcommand == Some("m")
    ensures r == Some(ListPrint) <==> command == "l" && subcommand == Some("p")
    ensures r == Some(ListReplace) <==> command == "l" && subcommand == Some("r")
  {
    if command == "l" then
      match subcommand
      case Some(sub) =>
        if sub == "a" then Some(ListAppend)
        else if sub == "m" then Some(ListMake)
        else if sub == "p" then Some(ListPrint)
        else if sub == "r" then Some(ListReplace)
        else None
      case None => None
    else None
  }

  /** Everything after the command token and the optional subcommand token. */
  function TrailingTokens(tokens: seq<Token>): seq<Token>
    requires |tokens| >= 1
  {
    if |tokens| >= 2 && tokens[1].kind == Subcommand then tokens[2..] else tokens[1..]
  }

  /** The text of the optional subcommand token. */
  function SubcommandText(tokens: seq<Token>): Option<string>
    requires |tokens| >= 1
  {
    if |tokens| >= 2 && tokens[1].kind == Subcommand then Some(tokens[1].text) else None
  }

  /** Resolve a token sequence into an operation and its arguments. */
  function ParseCommand(tokens: seq<Token>): (r: Parsed<CommandCall>)
    ensures |tokens| == 0 ==> r == ParseError(NoCommandToken)
    ensures |tokens| >= 1 && tokens[0].kind != Command ==> r == ParseError(FirstNotCommand)
    ensures r == ParseError(NonArgumentTrailing) <==>
      |tokens| >= 1 && tokens[0].kind == Command &&
      exists k :: 0 <= k < |TrailingTokens(tokens)| && TrailingTokens(tokens)[k].kind != Argument
    ensures r.Parsed? <==>
      |tokens| >= 1 && tokens[0].kind == Command &&
      ArgumentTexts(TrailingTokens(tokens)).Some? &&
      Lookup(tokens[0].text, SubcommandText(tokens)).Some?
    ensures (|tokens| >= 1 && tokens[0].kind == Command &&
             ArgumentTexts(TrailingTokens(tokens)).Some? &&
             Lookup(tokens[0].text, SubcommandText(tokens)).None?) ==>
      r == ParseError(FunctionNotFound)
    ensures r.Parsed? ==>
      r.value.fun == Lookup(tokens[0].text, SubcommandText(tokens)).value &&
      |r.value.args| == |TrailingTokens(tokens)| &&
      forall k :: 0 <= k < |r.value.args| ==> r.value.args[k] == TrailingTokens(tokens)[k].text
  {
    if |tokens| < 1 then ParseError(NoCommandToken)
    else
      var commandToken := tokens[0];
      if commandToken.kind != Command then ParseError(FirstNotCommand)
      else
        match ArgumentTexts(TrailingTokens(tokens))
        case None => ParseError(NonArgumentTrailing)
        case Some(args) =>
          match Lookup(commandToken.text, SubcommandText(tokens))
          case None => ParseError(FunctionNotFound)
          case Some(fun) => Parsed(CommandCall(fun, args))
  }

  /** A head segment of one character yields exactly one Command token
      holding that character, followed only by Argument tokens. */
  lemma SingleLetterHead(input: string)
    requires |HeadSegment(input)| == 1
    ensures ParseTokens(input).Parsed?
    ensures ParseTokens(input).value[0] == Token(Command, HeadSegment(input))
    ensures forall k :: 1 <= k < |ParseTokens(input).value| ==> ParseTokens(input).value[k].kind == Argument
  {
  }

  /** A head segment of two characters yields a Command token for the first
      character and a Subcommand token for the second, followed only by
      Argument tokens. */
  lemma TwoLetterHead(input: string)
    requires |HeadSegment(input)| == 2
    ensures ParseTokens(input).Parsed?
    ensures ParseTokens(input).value[0] == Token(Command, [HeadSegment(input)[0]])
    ensures ParseTokens(input).value[1] == Token(Subcommand, [HeadSegment(input)[1]])
    ensures forall k :: 2 <= k < |ParseTokens(input).value| ==> ParseTokens(input).value[k].kind == Argument
  {
    var head := HeadSegment(input);
    assert head[..1] == [head[0]] && head[1..2] == [head[1]];
  }

  /** An empty head (the empty input, or input starting with a comma) is
      rejected like a long one; the "missing first segment" branch is never
      taken, because splitting always yields at least one segment. */
  lemma HeadRejections(input: string)
    ensures ParseTokens("") == ParseError(FirstSegmentTooLong)
    ensures ParseTokens("," + input) == ParseError(FirstSegmentTooLong)
    ensures ParseTokens(input) != ParseError(MissingFirstSegment)
  {
    assert Split("", ',') == [""];
    var s := "," + input;
    assert s[0] == ',' && s[1..] == input;
    assert Split(s, ',')[0] == "";
  }

  /** The token sequence of a successful parse: the head tokens, then one
      Argument token per later segment. */
  lemma ParseTokensValue(input: string)
    requires ParseTokens(input).Parsed?
    ensures HeadTokens(HeadSegment(input)).Some?
    ensures ParseTokens(input).value ==
      HeadTokens(HeadSegment(input)).value + ArgumentTokens(Segments(input)[1..])
  {
  }

  lemma ArgumentTokenAt(h: seq<Token>, segments: seq<string>, k: int)
    requires |segments| >= 1
    requires |h| <= k < |h| + |segments| - 1
    ensures (h + ArgumentTokens(segments[1..]))[k] == Token(Argument, Trim(segments[k - |h| + 1]))
  {
  }

  /** On success there is one Argument token per comma of the input, and
      the token after the head tokens at position `k` holds segment `k + 1`
      trimmed, letter case unchanged. */
  lemma ArgumentsFollowSegments(input: string)
    requires ParseTokens(input).Parsed?
    ensures |ParseTokens(input).value| == |HeadSegment(input)| + Count(input, ',')
    ensures forall k :: |HeadSegment(input)| <= k < |ParseTokens(input).value| ==>
      ParseTokens(input).value[k] == Token(Argument, Trim(Segments(input)[k - |HeadSegment(input)| + 1]))
  {
    ParseTokensValue(input);
    var h := HeadTokens(HeadSegment(input)).value;
    var segments := Segments(input);
    var t := ParseTokens(input).value;
    assert |h| == |HeadSegment(input)|;
    assert |t| == |HeadSegment(input)| + Count(input, ',') by {
      ArgumentsAfterHead(h, segments);
    }
    forall k | |HeadSegment(input)| <= k < |t|
      ensures t[k] == Token(Argument, Trim(segments[k - |HeadSegment(input)| + 1]))
    {
      ArgumentTokenAt(h, segments, k);
    }
  }

  /** Head tokens followed by the argument tokens of the later segments. */
  lemma ArgumentsAfterHead(h: seq<Token>, segments: seq<string>)
    requires |segments| >= 1
    ensures |h + ArgumentTokens(segments[1..])| == |h| + |segments| - 1
    ensures forall k :: |h| <= k < |h| + |segments| - 1 ==>
      (h + ArgumentTokens(segments[1..]))[k] == Token(Argument, Trim(segments[k - |h| + 1]))
  {
    forall k | |h| <= k < |h| + |segments| - 1
      ensures (h + ArgumentTokens(segments[1..]))[k] == Token(Argument, Trim(segments[k - |h| + 1]))
    {
      ArgumentTokenAt(h, segments, k);
    }
  }

  /** Whatever `ParseTokens` produces is shaped as `ParseCommand` expects:
      the non-argument error never arises, resolution succeeds exactly when
      the head is one of `la`, `lm`, `lp`, `lr`, and the resolved arguments
      are the trimmed segments after the head, in order. */
  lemma {:induction false} ParsedTokensResolve(input: string)
    requires ParseTokens(input).Parsed?
    ensures ParseCommand(ParseTokens(input).value) != ParseError(NonArgumentTrailing)
    ensures ParseCommand(ParseTokens(input).value).Parsed? <==>
      HeadSegment(input) in {"la", "lm", "lp", "lr"}
    ensures ParseCommand(ParseTokens(input).value).Parsed? ==>
      var args := ParseCommand(ParseTokens(input).value).value.args;
      && |args| == Count(input, ',')
      && forall k :: 0 <= k < |args| ==> args[k] == Trim(Segments(input)[k + 1])
  {
    ParseTokensValue(input);
    var tokens := ParseTokens(input).value;
    var head := HeadSegment(input);
    var segments := Segments(input);
    var headTokens := HeadTokens(head).value;
    var argTokens := ArgumentTokens(segments[1..]);
    assert tokens == headTokens + argTokens;
    assert TrailingTokens(tokens) == argTokens by {
      if |head| == 1 {
        assert tokens[1..] == argTokens;
      } else {
        assert tokens[2..] == argTokens;
      }
    }
    assert tokens[0].kind == Command;
    if |head| == 1 {
      assert SubcommandText(tokens) == None by {
        if |tokens| >= 2 {
          assert tokens[1] == argTokens[0];
        }
      }
      assert head !in {"la", "lm", "lp", "lr"};
    } else {
      assert head == [head[0], head[1]];
      assert head[..1] == [head[0]] && head[1..2] == [head[1]];
      assert tokens[1] == headTokens[1] == Token(Subcommand, [head[1]]);
      assert SubcommandText(tokens) == Some([head[1]]);
      assert tokens[0].text == [head[0]];
    }
  }
}

=== FILE: list.dfy ===
/**
 Creation and management of simple lists of text: make, print, append and
 replace. Each list is one text object in an object store, kept under the
 key `lists/<name>.txt`; the store is a map from key to text, and a key that
 is not in the map is an object the store cannot find. Every operation takes
 the store and its string arguments and returns the store after the
 operation together with a result code and message.
 */
module Lists {
  import opened Text
  import opened Optional
  import opened JsNumbers

  type Store = map<string, string>

  datatype Code = Success | UserError | SystemError

  /** What every command function returns. */
  datatype CommandResult = CommandResult(code: Code, message: string)

  /** The store after an operation, and the operation's result. */
  datatype Outcome = Outcome(store: Store, result: CommandResult)

  const ListNameNotGiven := "List name not given."
  const TooManyArguments := "Too many arguments supplied."
  const ObjectNotFound := "Could not find the object."
  const BlankLine := "Cannot append a blank line. Supply a line."
  const InvalidReplaceIndex := "Invalid replace line index."

  /** A user error that leaves the store as it was. */
  function Fail(store: Store, message: string): Outcome {
    Outcome(store, CommandResult(UserError, message))
  }

  function Succeed(store: Store, message: string): Outcome {
    Outcome(store, CommandResult(Success, message))
  }

  /** The store after an operation differs from the one before at most in
      the object under `key`, which exists afterwards. */
  predicate OnlyKeyWritten(before: Store, after: Store, key: string) {
    key in after && after == before[key := after[key]]
  }

  /** The store key of a list: the name sits between a fixed prefix and a
      fixed suffix, so the name can be read back from the key. */
  function GetListKey(listName: string): (key: string)
    ensures |key| == |listName| + 10
    ensures key[..6] == "lists/" && key[|key| - 4..] == ".txt"
    ensures key[6..|key| - 4] == listName
  {
    "lists/" + listName + ".txt"
  }

  /** Distinct list names never share an object. */
  lemma ListKeyInjective(a: string, b: string)
    ensures GetListKey(a) == GetListKey(b) <==> a == b
  {
  }

  /** The regular expression `\d*` matched against the whole string. */
  function MatchesDigits(s: string): (r: bool)
    ensures r <==> AllDigits(s)
  {
    if |s| == 0 then true
    else IsDigit(s[0]) && MatchesDigits(s[1..])
  }

  /** The regular expression `^\d+$`: one digit, then `\d*` to the end. */
  function IsNumberString(input: string): (r: bool)
    ensures r <==> |input| > 0 && AllDigits(input)
  {
    |input| > 0 && IsDigit(input[0]) && MatchesDigits(input[1..])
  }

  // ---------------------------------------------------------------------
  // Stored text and its lines

  /** The line filter of `mapLines`: neither empty nor a lone newline. */
  predicate KeptLine(line: string) {
    line != "" && line != "\n"
  }

  /** The lines a stored text shows: its newline-separated pieces, empty
      pieces dropped. */
  function VisibleLines(text: string): seq<string> {
    Filter(Split(text, '\n'), KeptLine)
  }

  /** A line that can be stored and read back as one line. */
  predicate WellFormedLine(line: string) {
    line != "" && '\n' !in line
  }

  predicate WellFormedLines(lines: seq<string>) {
    forall k :: 0 <= k < |lines| ==> WellFormedLine(lines[k])
  }

  /** The stored form of a list: each line followed by a newline, and the
      empty list as the empty text. */
  function Serialize(lines: seq<string>): string {
    if |lines| == 0 then "" else Join(lines, '\n') + "\n"
  }

  /** The pieces of a stored list are its lines and one empty trailing
      piece. */
  lemma SplitSerialized(lines: seq<string>)
    requires WellFormedLines(lines)
    ensures Split(Serialize(lines), '\n') == lines + [""]
  {
    if |lines| == 0 {
      assert Split("", '\n') == [""];
    } else {
      JoinSnoc(lines, "", '\n');
      assert Join(lines + [""], '\n') == Serialize(lines);
      SplitJoin(lines + [""], '\n');
    }
  }

  /** Reading the lines of a stored list gives back the list. */
  lemma VisibleSerialized(lines: seq<string>)
    requires WellFormedLines(lines)
    ensures VisibleLines(Serialize(lines)) == lines
  {
    SplitSerialized(lines);
    FilterConcat(lines, [""], KeptLine);
    FilterKeepsAll(lines, KeptLine);
  }

  /** Storing the lines a text shows and reading them again is stable. */
  lemma SerializeVisibleStable(text: string)
    ensures WellFormedLines(VisibleLines(text))
    ensures VisibleLines(Serialize(VisibleLines(text))) == VisibleLines(text)
  {
    var pieces := Split(text, '\n');
    var lines := VisibleLines(text);
    forall k | 0 <= k < |lines| ensures WellFormedLine(lines[k]) {
      FilterElementFrom(pieces, KeptLine, k);
    }
    VisibleSerialized(lines);
  }

  /** The callback applied to each line with its 0-based position. */
  function MappedLines(lines: seq<string>, callback: (string, nat) -> string): (r: seq<string>)
    ensures |r| == |lines|
    ensures forall k :: 0 <= k < |r| ==> r[k] == callback(lines[k], k)
  {
    seq(|lines|, k requires 0 <= k < |lines| => callback(lines[k], k))
  }

  /** `mapLines`: the callback applied to each shown line with its position
      among the shown lines, joined by newlines, with one trailing newline;
      the empty text maps to the empty text. */
  function MapLines(input: string, callback: (string, nat) -> string): (r: string)
    ensures input == "" <==> r == ""
    ensures r != "" ==> r[|r| - 1] == '\n'
  {
    if input == "" then ""
    else Join(MappedLines(VisibleLines(input), callback), '\n') + "\n"
  }

  /** On a stored list, `mapLines` applies the callback to exactly the
      list's lines, numbered from 0 in order. */
  lemma MapLinesOfSerialized(lines: seq<string>, callback: (string, nat) -> string)
    requires WellFormedLines(lines)
    ensures MapLines(Serialize(lines), callback) ==
      if |lines| == 0 then "" else Join(MappedLines(lines, callback), '\n') + "\n"
  {
    if |lines| > 0 {
      VisibleSerialized(lines);
    }
  }

  /** The numbering callback of `listPrint`: 1-based position, colon,
      space, line. */
  function NumberLine(line: string, index: nat): string {
    NatToString(index + 1) + ": " + line
  }

  // ---------------------------------------------------------------------
  // Operations

  /** Create a new list (or empty an existing one). */
  function ListMake(store: Store, args: seq<string>): (r: Outcome)
    ensures |args| == 0 ==> r == Fail(store, ListNameNotGiven)
    ensures |args| > 1 ==> r == Fail(store, TooManyArguments)
    ensures |args| == 1 ==> r.result.code == Success && GetListKey(args[0]) in r.store
    ensures |args| == 1 ==> r.result.message == args[0] + ": created list."
    ensures |args| == 1 ==> r.store[GetListKey(args[0])] == Serialize([])
    ensures |args| == 1 ==> VisibleLines(r.store[GetListKey(args[0])]) == []
    ensures |args| == 1 ==> OnlyKeyWritten(store, r.store, GetListKey(args[0]))
    ensures |args| == 1 ==> r.store.Keys == store.Keys + {GetListKey(args[0])}
    ensures |args| == 1 ==> forall key :: key in store && key != GetListKey(args[0]) ==> r.store[key] == store[key]
  {
    if |args| < 1 then Fail(store, ListNameNotGiven)
    else if |args| > 1 then Fail(store, TooManyArguments)
    else
      var listName := args[0];
      assert Split("", '\n') == [""];
      Succeed(store[GetListKey(listName) := ""], listName + ": created list.")
  }

  /** Print a list, one numbered line per shown line, ending with `~`. */
  function ListPrint(store: Store, args: seq<string>): (r: Outcome)
    ensures r.store == store
    ensures |args| == 0 ==> r.result == CommandResult(UserError, ListNameNotGiven)
    ensures |args| > 1 ==> r.result == CommandResult(UserError, TooManyArguments)
    ensures |args| == 1 ==> (r.result.code == Success <==> GetListKey(args[0]) in store)
    ensures |args| == 1 && GetListKey(args[0]) !in store ==> r.result == CommandResult(UserError, ObjectNotFound)
    ensures |args| == 1 && GetListKey(args[0]) in store ==>
      r.result == CommandResult(Success, MapLines(store[GetListKey(args[0])], NumberLine) + "~")
    ensures r.result.code != Success ==> r.result.code == UserError
    ensures r.result.code == Success ==> |r.result.message| > 0 && r.result.message[|r.result.message| - 1] == '~'
  {
    if |args| < 1 then Fail(store, ListNameNotGiven)
    else if |args| > 1 then Fail(store, TooManyArguments)
    else
      var listName := args[0];
      var key := GetListKey(listName);
      if key !in store then Fail(store, ObjectNotFound)
      else Succeed(store, MapLines(store[key], NumberLine) + "~")
  }

  /** Add one line to the end of a list. */
  function ListAppend(store: Store, args: seq<string>): (r: Outcome)
    ensures r.result.code != Success ==> r.store == store && r.result.code == UserError
    ensures |args| == 0 ==> r == Fail(store, ListNameNotGiven)
    ensures |args| > 2 ==> r == Fail(store, TooManyArguments)
    ensures |args| == 1 || (|args| == 2 && IsBlank(args[1])) ==> r == Fail(store, BlankLine)
    ensures |args| == 2 && !IsBlank(args[1]) && GetListKey(args[0]) !in store ==>
      r == Fail(store, "Could not append list " + args[0])
    ensures r.result.code == Success <==>
      |args| == 2 && !IsBlank(args[1]) && GetListKey(args[0]) in store
    ensures r.result.code == Success ==>
      var key := GetListKey(args[0]);
      && OnlyKeyWritten(store, r.store, key)
      && r.store[key] == store[key] + args[1] + "\n"
      && r.result.message == args[0] + ": added line " + args[1] + "\n"
  {
    if |args| < 1 then Fail(store, ListNameNotGiven)
    else if |args| > 2 then Fail(store, TooManyArguments)
    else
      var listName := args[0];
      if |args| < 2 || (TrimBlank(args[1]); Trim(args[1]) == "") then Fail(store, BlankLine)
      else
        var line := args[1] + "\n";
        var key := GetListKey(listName);
        if key !in store then Fail(store, "Could not append list " + listName)
        else Succeed(store[key := store[key] + line], listName + ": added line " + line)
  }

  /** Which slot to rewrite and what to write there, as the replace
      arguments determine them before the list is read. The index `-1`
      stands for the last slot and the text `"\n"` for deletion. */
  datatype ReplacePlan = ReplacePlan(index: JsNumber, line: string)

  const LastSlot := Whole(-1)
  const DeleteMarker := "\n"

  function PlanReplace(args: seq<string>): Option<ReplacePlan>
    requires |args| >= 1
  {
    if |args| == 1 then Some(ReplacePlan(LastSlot, DeleteMarker))
    else if |args| == 2 then
      if IsNumberString(args[1]) then Some(ReplacePlan(AddNumber(ToNumber(args[1]), -1), DeleteMarker))
      else Some(ReplacePlan(LastSlot, args[1] + "\n"))
    else if |args| == 3 then Some(ReplacePlan(AddNumber(ToNumber(args[1]), -1), args[2] + "\n"))
    else None
  }

  /** The slot a plan addresses once the pieces of the stored text are
      known: the last-slot marker becomes the last piece's index. */
  function ResolveIndex(index: JsNumber, pieces: seq<string>): JsNumber {
    if index == LastSlot then Whole(|pieces| - 1) else index
  }

  /** An index the range check `index < 0 || index >= length` rejects. A
      fraction is compared by its value, an infinity is always rejected,
      and `NaN` never is: both of its comparisons are false. */
  predicate OutOfRange(index: JsNumber, pieces: seq<string>) {
    match index
    case Whole(v) => v < 0 || v >= |pieces|
    case Fraction(m, k) => m < 0 || m >= Shift(|pieces|, k)
    case Infinite(_) => true
    case NaN => false
  }

  predicate NotDeleteMarker(line: string) {
    line != DeleteMarker
  }

  /** Write `line` into the addressed slot and drop deleted slots. An
      index that is not a whole number addresses no slot: the write goes to
      an array property that `filter` and `join` do not see. */
  function RewritePieces(pieces: seq<string>, index: JsNumber, line: string): seq<string>
    requires !OutOfRange(index, pieces)
  {
    var updated := if index.Whole? then pieces[index.value := line] else pieces;
    Filter(updated, NotDeleteMarker)
  }

  /** The new text of a list and the slot index it was rewritten at. */
  datatype Rewritten = Rewritten(text: string, index: JsNumber)

  /** Apply a plan to the stored text: split it into pieces, resolve the
      index, apply the range check, rewrite and join. */
  function RewriteText(text: string, plan: ReplacePlan): Option<Rewritten> {
    var pieces := Split(text, '\n');
    var index := ResolveIndex(plan.index, pieces);
    if OutOfRange(index, pieces) then None
    else Some(Rewritten(Join(RewritePieces(pieces, index, plan.line), '\n'), index))
  }

  /** Replace a line of a list with a new line, or delete it. */
  function ListReplace(store: Store, args: seq<string>): (r: Outcome)
    ensures r.result.code != Success ==> r.store == store && r.result.code == UserError
    ensures r.result.code == Success ==>
      |args| >= 1 && GetListKey(args[0]) in store && OnlyKeyWritten(store, r.store, GetListKey(args[0]))
    ensures |args| == 0 ==> r == Fail(store, ListNameNotGiven)
    ensures |args| > 3 ==> r == Fail(store, TooManyArguments)
    ensures 1 <= |args| <= 3 && GetListKey(args[0]) !in store ==>
      r == Fail(store, "Could not replace line in list " + args[0])
  {
    if |args| < 1 then Fail(store, ListNameNotGiven)
    else
      var listName := args[0];
      match PlanReplace(args)
      case None => Fail(store, TooManyArguments)
      case Some(plan) =>
        var key := GetListKey(listName);
        if key !in store then Fail(store, "Could not replace line in list " + listName)
        else
          match RewriteText(store[key], plan)
          case None => Fail(store, InvalidReplaceIndex)
          case Some(rewritten) =>
            Succeed(store[key := rewritten.text],
              listName + ": replaced line " + NumberText(AddNumber(rewritten.index, 1)) + " with " + plan.line)
  }

  // ---------------------------------------------------------------------
  // Properties of the operations

  /** Printing a list right after making it shows no lines, only the end
      marker, and changes nothing. */
  lemma PrintAfterMake(store: Store, name: string)
    ensures ListPrint(ListMake(store, [name]).store, [name]) ==
      Succeed(ListMake(store, [name]).store, "~")
  {
  }

  /** The lines of a list numbered from 1, as `listPrint` shows them. */
  function NumberedLines(lines: seq<string>): (r: seq<string>)
    ensures |r| == |lines|
    ensures forall k :: 0 <= k < |r| ==> r[k] == NatToString(k + 1) + ": " + lines[k]
  {
    MappedLines(lines, NumberLine)
  }

  /** Printing a stored list numbers its lines from 1 in order, one per
      output line, and ends with `~`; the store is unchanged. */
  lemma PrintStoredList(store: Store, name: string, lines: seq<string>)
    requires GetListKey(name) in store && store[GetListKey(name)] == Serialize(lines)
    requires WellFormedLines(lines)
    ensures ListPrint(store, [name]) == Succeed(store,
      (if |lines| == 0 then "" else Join(NumberedLines(lines), '\n') + "\n") + "~")
  {
    MapLinesOfSerialized(lines, NumberLine);
  }

  /** Appending a line to a stored list stores the list with that line
      added at the end. */
  lemma AppendToStoredList(store: Store, name: string, lines: seq<string>, line: string)
    requires GetListKey(name) in store && store[GetListKey(name)] == Serialize(lines)
    requires WellFormedLines(lines) && WellFormedLine(line) && !IsBlank(line)
    ensures ListAppend(store, [name, line]).result.code == Success
    ensures ListAppend(store, [name, line]).store[GetListKey(name)] == Serialize(lines + [line])
    ensures VisibleLines(ListAppend(store, [name, line]).store[GetListKey(name)]) == lines + [line]
  {
    if |lines| > 0 {
      JoinSnoc(lines, line, '\n');
    } else {
      assert lines + [line] == [line];
    }
    WellFormedAppend(lines, line);
    VisibleSerialized(lines + [line]);
  }

  /** Adding a well-formed line to well-formed lines keeps them well
      formed. */
  lemma WellFormedAppend(lines: seq<string>, line: string)
    requires WellFormedLines(lines) && WellFormedLine(line)
    ensures WellFormedLines(lines + [line])
  {
    forall k | 0 <= k < |lines + [line]| ensures WellFormedLine((lines + [line])[k]) {
      if k < |lines| {
        assert (lines + [line])[k] == lines[k];
      }
    }
  }

  /** How the replace arguments decide the slot and the action: the slot is
      the last one for a single name, for a non-numeric second argument, and
      for a user index of 0; the action is deletion for a single name, for a
      numeric second argument, and for empty replacement text. */
  lemma ReplaceArgumentsResolve(args: seq<string>)
    requires |args| >= 1
    ensures PlanReplace(args).Some? <==> |args| <= 3
    ensures PlanReplace(args).Some? ==>
      (PlanReplace(args).value.line == DeleteMarker <==>
        || |args| == 1
        || (|args| == 2 && (IsNumberString(args[1]) || args[1] == ""))
        || (|args| == 3 && args[2] == ""))
    ensures PlanReplace(args).Some? ==>
      (PlanReplace(args).value.index == LastSlot <==>
        || |args| == 1
        || (|args| == 2 && (!IsNumberString(args[1]) || DecimalValue(args[1]) == 0))
        || (|args| == 3 && ToNumber(args[1]) == Whole(0)))
    ensures |args| == 2 && IsNumberString(args[1]) ==>
      PlanReplace(args) == Some(ReplacePlan(Whole(DecimalValue(args[1]) - 1), DeleteMarker))
    ensures |args| == 2 && !IsNumberString(args[1]) ==>
      PlanReplace(args) == Some(ReplacePlan(LastSlot, args[1] + "\n"))
    ensures |args| == 3 ==>
      PlanReplace(args) == Some(ReplacePlan(AddNumber(ToNumber(args[1]), -1), args[2] + "\n"))
  {
    if |args| >= 2 {
      assert args[1] + "\n" == DeleteMarker ==> args[1] == "" by {
        if args[1] + "\n" == DeleteMarker {
          assert |args[1]| == 0;
        }
      }
    }
    if |args| == 3 {
      assert args[2] + "\n" == DeleteMarker ==> args[2] == "" by {
        if args[2] + "\n" == DeleteMarker {
          assert |args[2]| == 0;
        }
      }
    }
  }

  /** No piece of a split text is the delete marker. */
  lemma PiecesAreNotMarkers(text: string)
    ensures forall k :: 0 <= k < |Split(text, '\n')| ==> NotDeleteMarker(Split(text, '\n')[k])
  {
    var pieces := Split(text, '\n');
    forall k | 0 <= k < |pieces| ensures NotDeleteMarker(pieces[k]) {
      assert '\n' !in pieces[k];
      assert DeleteMarker[0] == '\n';
    }
  }

  /** The range check: with a valid argument count and an existing list,
      replace fails with the invalid-index error, leaving the store as it
      was, exactly when the resolved index is a whole number outside the
      pieces of the stored text. The last slot always passes. */
  lemma ReplaceRangeCheck(store: Store, args: seq<string>)
    requires 1 <= |args| <= 3 && GetListKey(args[0]) in store
    ensures var pieces := Split(store[GetListKey(args[0])], '\n');
      var index := ResolveIndex(PlanReplace(args).value.index, pieces);
      && !OutOfRange(ResolveIndex(LastSlot, pieces), pieces)
      && (ListReplace(store, args) == Fail(store, InvalidReplaceIndex) <==> OutOfRange(index, pieces))
      && (ListReplace(store, args).result.code == Success <==> !OutOfRange(index, pieces))
  {
  }

  /** What a successful replace stores, in terms of the pieces of the old
      text: deletion removes exactly the addressed piece, overwriting puts
      the new text (with its newline) in that piece, every other piece
      keeps its value and order, and an index that is not a whole number
      (`NaN` or a fraction in range) stores the old text again. */
  lemma ReplaceRewrites(store: Store, args: seq<string>)
    requires ListReplace(store, args).result.code == Success
    ensures |args| >= 1 && PlanReplace(args).Some? && GetListKey(args[0]) in store
    ensures var key := GetListKey(args[0]);
      var pieces := Split(store[key], '\n');
      var plan := PlanReplace(args).value;
      var index := ResolveIndex(plan.index, pieces);
      var text := ListReplace(store, args).store[key];
      && (!index.Whole? ==> text == store[key])
      && (index.Whole? ==> 0 <= index.value < |pieces|)
      && (index.Whole? && plan.line == DeleteMarker ==>
            text == Join(pieces[..index.value] + pieces[index.value + 1..], '\n'))
      && (index.Whole? && plan.line != DeleteMarker ==>
            text == Join(pieces[index.value := plan.line], '\n'))
  {
    var key := GetListKey(args[0]);
    var pieces := Split(store[key], '\n');
    var plan := PlanReplace(args).value;
    var index := ResolveIndex(plan.index, pieces);
    PiecesAreNotMarkers(store[key]);
    if index.Whole? {
      FilterAfterUpdate(pieces, index.value, plan.line, NotDeleteMarker);
    } else {
      FilterKeepsAll(pieces, NotDeleteMarker);
      JoinSplit(store[key], '\n');
    }
  }

  /** The reply of a successful replace at a whole index names the piece
      counted from 1 and the text written, its newline included. */
  lemma ReplaceReply(store: Store, args: seq<string>)
    requires ListReplace(store, args).result.code == Success
    ensures |args| >= 1 && PlanReplace(args).Some? && GetListKey(args[0]) in store
    ensures var plan := PlanReplace(args).value;
      var index := ResolveIndex(plan.index, Split(store[GetListKey(args[0])], '\n'));
      index.Whole? ==>
        && index.value >= 0
        && ListReplace(store, args).result.message ==
             args[0] + ": replaced line " + NatToString(index.value + 1) + " with " + plan.line
  {
  }

  /** A user index of 0 means the last slot: `lr,name,0` behaves as
      `lr,name`, and `lr,name,0,text` as `lr,name,text` when the text is not
      itself a number. */
  lemma ZeroIndexIsLast(store: Store, name: string, text: string)
    ensures ListReplace(store, [name, "0"]) == ListReplace(store, [name])
    ensures !IsNumberString(text) ==>
      ListReplace(store, [name, "0", text]) == ListReplace(store, [name, text])
  {
    assert IsNumberString("0");
    assert DecimalValue("0") == 0;
  }
}

=== FILE: numbers.dfy ===
/**
 JavaScript's `Number(s)` on strings and the template-literal rendering of
 the numbers it gives, as section 7.1.4.1 (StringToNumber) and section
 6.1.6.1.20 (Number::toString) of ECMA-262 define them, with exact decimal
 arithmetic in place of binary floating point. A value is a whole number, a
 decimal fraction `digits / 10^places`, an infinity, or `NaN`.
*/
module JsNumbers {
  import opened Text
  import opened Optional

  datatype JsNumber =
    | Whole(value: int)
    | Fraction(digits: int, places: nat)
    | Infinite(positive: bool)
    | NaN

  /** `m * 10^k`, by multiplying by ten `k` times. */
  function Shift(m: int, k: nat): (r: int)
    ensures m >= 0 ==> r >= 0
    decreases k
  {
    if k == 0 then m else Shift(10 * m, k - 1)
  }

  function Pow10(k: nat): (r: nat)
    ensures r >= 1
  {
    if k == 0 then 1 else 10 * Pow10(k - 1)
  }

  /** Shifting by `k` places multiplies by `10^k`. */
  lemma {:induction false} ShiftIsProduct(m: int, k: nat)
    ensures Shift(m, k) == m * Pow10(k)
    decreases k
  {
    if k > 0 {
      ShiftIsProduct(10 * m, k - 1);
      assert (10 * m) * Pow10(k - 1) == m * Pow10(k);
    }
  }

  /** Shifting commutes with a factor of ten, and one more place is one
      more factor of ten. */
  lemma {:induction false} ShiftTen(m: int, k: nat)
    ensures Shift(10 * m, k) == 10 * Shift(m, k)
    ensures Shift(m, k + 1) == 10 * Shift(m, k)
    decreases k
  {
    if k > 0 {
      ShiftTen(10 * m, k - 1);
    }
  }

  /** Shifting commutes with negation. */
  lemma {:induction false} ShiftNegate(m: int, k: nat)
    ensures Shift(-m, k) == -Shift(m, k)
    decreases k
  {
    if k > 0 {
      ShiftNegate(10 * m, k - 1);
    }
  }

  /** One number, one representation: a fraction has at least one place
      and no trailing zero digit, so it is not a whole number. */
  predicate Canonical(n: JsNumber) {
    n.Fraction? ==> n.places >= 1 && n.digits % 10 != 0
  }

  /** The number `m * 10^e` in canonical form: the same value, with
      trailing zero digits of a fraction dropped. */
  function Scaled(m: int, e: int): (n: JsNumber)
    ensures Canonical(n) && (n.Whole? || n.Fraction?)
    ensures e >= 0 ==> n == Whole(Shift(m, e))
    ensures e < 0 && n.Whole? ==> Shift(n.value, -e) == m
    ensures n.Fraction? ==> e < 0 && n.places <= -e && Shift(n.digits, -e) == Shift(m, n.places)
    decreases if e < 0 then -e else 0
  {
    if e >= 0 then Whole(Shift(m, e))
    else if m % 10 == 0 then
      var n := Scaled(m / 10, e + 1);
      ScaledStep(m, e, n);
      n
    else Fraction(m, -e)
  }

  /** Dropping a trailing zero digit and one decimal place keeps the value. */
  lemma ScaledStep(m: int, e: int, n: JsNumber)
    requires e < 0 && m % 10 == 0
    requires e + 1 < 0 && n.Whole? ==> Shift(n.value, -(e + 1)) == m / 10
    requires e + 1 >= 0 ==> n == Whole(Shift(m / 10, e + 1))
    requires n.Fraction? ==> n.places <= -(e + 1) && Shift(n.digits, -(e + 1)) == Shift(m / 10, n.places)
    ensures n.Whole? ==> Shift(n.value, -e) == m
    ensures n.Fraction? ==> Shift(n.digits, -e) == Shift(m, n.places)
  {
    assert m == 10 * (m / 10);
    if n.Whole? {
      ShiftTen(n.value, -(e + 1));
    }
    if n.Fraction? {
      ShiftTen(n.digits, -(e + 1));
      ShiftTen(m / 10, n.places);
    }
  }

  /** A mantissa without a trailing zero and a negative exponent is
      already canonical. */
  lemma ScaledFraction(m: int, k: nat)
    requires k >= 1 && m % 10 != 0
    ensures Scaled(m, -(k as int)) == Fraction(m, k)
  {
  }

  function Negate(n: JsNumber): (r: JsNumber)
    ensures Canonical(n) ==> Canonical(r)
  {
    match n
    case Whole(v) => Whole(-v)
    case Fraction(m, k) => NegateKeepsLastDigit(m); Fraction(-m, k)
    case Infinite(p) => Infinite(!p)
    case NaN => NaN
  }

  lemma NegateKeepsLastDigit(m: int)
    ensures m % 10 == 0 <==> (-m) % 10 == 0
  {
    if m % 10 == 0 {
      assert -m == 10 * (-(m / 10));
    }
    if (-m) % 10 == 0 {
      assert m == 10 * (-((-m) / 10));
    }
  }

  /** A digit of base 2, 8, 10 or 16, and its value; anything else has the
      value 16, which no base admits. */
  function DigitValue(c: char): (v: nat)
    ensures v <= 16
  {
    if '0' <= c <= '9' then c as int - '0' as int
    else if 'a' <= c <= 'f' then c as int - 'a' as int + 10
    else if 'A' <= c <= 'F' then c as int - 'A' as int + 10
    else 16
  }

  predicate AllRadixDigits(s: string, radix: nat) {
    forall k :: 0 <= k < |s| ==> DigitValue(s[k]) < radix
  }

  function RadixValue(s: string, radix: nat): nat {
    if |s| == 0 then 0
    else RadixValue(s[..|s| - 1], radix) * radix + DigitValue(s[|s| - 1])
  }

  /** The base a prefix letter names: `x` 16, `o` 8, `b` 2 (either case);
      0 for any other letter. */
  function Radix(c: char): nat {
    if c == 'x' || c == 'X' then 16
    else if c == 'o' || c == 'O' then 8
    else if c == 'b' || c == 'B' then 2
    else 0
  }

  /** A `0x`, `0o` or `0b` literal with at least one digit of its base. */
  predicate RadixLiteral(t: string) {
    |t| > 2 && t[0] == '0' && Radix(t[1]) > 0 && AllRadixDigits(t[2..], Radix(t[1]))
  }

  /** The index just past the run of decimal digits starting at `i`. */
  function DigitRun(u: string, i: nat): (j: nat)
    requires i <= |u|
    ensures i <= j <= |u| && AllDigits(u[i..j])
    ensures j == |u| || !IsDigit(u[j])
    decreases |u| - i
  {
    if i < |u| && IsDigit(u[i]) then
      var j := DigitRun(u, i + 1);
      assert u[i..j] == [u[i]] + u[i + 1..j];
      j
    else i
  }

  predicate DigitString(s: string) {
    |s| > 0 && AllDigits(s)
  }

  /** The mantissa `digits * 10^-places` of a decimal literal, and the index
      where it ends. */
  datatype Mantissa = Mantissa(digits: nat, places: nat, end: nat)

  /** The mantissa at the start of `u`: digits with an optional point and
      fraction digits, at least one digit in all; `None` if there is none. */
  function ReadMantissa(u: string): (r: Option<Mantissa>)
    ensures r.Some? ==> r.value.end <= |u|
  {
    var i := DigitRun(u, 0);
    if i < |u| && u[i] == '.' then
      var j := DigitRun(u, i + 1);
      if i == 0 && j == 1 then None
      else Some(Mantissa(Shift(DecimalValue(u[..i]), j - i - 1) + DecimalValue(u[i + 1..j]), j - i - 1, j))
    else if i == 0 then None
    else Some(Mantissa(DecimalValue(u[..i]), 0, i))
  }

  /** The exponent after `e` or `E`: an optional sign and at least one
      digit. */
  function ReadExponent(x: string): Option<int> {
    if |x| > 0 && (x[0] == '+' || x[0] == '-') then
      if !DigitString(x[1..]) then None
      else if x[0] == '-' then Some(-(DecimalValue(x[1..]) as int))
      else Some(DecimalValue(x[1..]))
    else if DigitString(x) then Some(DecimalValue(x))
    else None
  }

  /** StrUnsignedDecimalLiteral: `Infinity`, or a mantissa followed by an
      optional exponent part, and nothing else. */
  function UnsignedDecimal(u: string): (n: JsNumber)
    ensures Canonical(n)
  {
    if u == "Infinity" then Infinite(true)
    else match ReadMantissa(u)
      case None => NaN
      case Some(mt) =>
        var rest := u[mt.end..];
        if rest == "" then Scaled(mt.digits, -(mt.places as int))
        else if rest[0] != 'e' && rest[0] != 'E' then NaN
        else match ReadExponent(rest[1..])
          case None => NaN
          case Some(x) => Scaled(mt.digits, x - mt.places)
  }

  /** StrDecimalLiteral: an optional sign before an unsigned literal. */
  function SignedDecimal(t: string): (n: JsNumber)
    ensures Canonical(n)
  {
    var signed := |t| > 0 && (t[0] == '+' || t[0] == '-');
    var n := UnsignedDecimal(if signed then t[1..] else t);
    if signed && t[0] == '-' then Negate(n) else n
  }

  /** `Number(s)`: surrounding white space is ignored, a blank string is 0,
      a `0x`/`0o`/`0b` literal is read in its base, a decimal literal is
      read with its sign, fraction and exponent, and anything else is
      `NaN`. */
  function ToNumber(s: string): (n: JsNumber)
    ensures Canonical(n)
    ensures DigitString(s) ==> n == Whole(DecimalValue(s))
    ensures IsBlank(s) ==> n == Whole(0)
  {
    TrimBlank(s);
    DigitsReadWhole(s);
    var t := Trim(s);
    if t == "" then Whole(0)
    else if RadixLiteral(t) then Whole(RadixValue(t[2..], Radix(t[1])))
    else SignedDecimal(t)
  }

  /** A digit string is untouched by `Trim`, is no `0x`/`0o`/`0b` literal,
      and reads as its decimal value. */
  lemma DigitsReadWhole(s: string)
    ensures DigitString(s) ==>
      && Trim(s) == s
      && !RadixLiteral(s)
      && SignedDecimal(s) == Whole(DecimalValue(s))
  {
    if DigitString(s) {
      TrimUnpadded(s);
      assert DigitRun(s, 0) == |s|;
      assert s[..|s|] == s;
      assert s != "Infinity" by { assert IsDigit(s[0]); }
    }
  }

  /** A text that starts and ends with a non-space character is left alone
      by `Trim`, so `Number` reads it whole. */
  lemma TrimUnpadded(s: string)
    requires |s| > 0 && !IsSpace(s[0]) && !IsSpace(s[|s| - 1])
    ensures Trim(s) == s
  {
    assert SkipSpaces(s, 0) == 0;
    assert SkipSpacesBack(s, 0, |s|) == |s|;
  }

  /** Adding a whole number. */
  function AddNumber(n: JsNumber, d: int): (r: JsNumber)
    ensures Canonical(n) ==> Canonical(r)
  {
    match n
    case Whole(v) => Whole(v + d)
    case Fraction(m, k) =>
      if k >= 1 then
        assert (m + Shift(d, k)) % 10 == m % 10 by { ShiftKeepsLastDigit(m, d, k); }
        Fraction(m + Shift(d, k), k)
      else Fraction(m + Shift(d, k), k)
    case Infinite(p) => n
    case NaN => NaN
  }

  lemma ShiftKeepsLastDigit(m: int, d: int, k: nat)
    requires k >= 1
    ensures (m + Shift(d, k)) % 10 == m % 10
  {
    ShiftTen(d, k - 1);
    AddTensKeepsLastDigit(m, Shift(d, k - 1));
  }

  lemma AddTensKeepsLastDigit(m: int, q: int)
    ensures (m + 10 * q) % 10 == m % 10
  {
    assert m + 10 * q == 10 * (m / 10 + q) + m % 10;
  }

  /** Adding and then subtracting the same whole number gives back the
      number. */
  lemma AddNumberInverse(n: JsNumber, d: int)
    ensures AddNumber(AddNumber(n, d), -d) == n
  {
    match n
    case Fraction(m, k) => ShiftNegate(d, k);
    case _ =>
  }

  /** The low `k` decimal digits of `v`, zero-padded on the left. */
  function Padded(v: nat, k: nat): (r: string)
    ensures |r| == k && AllDigits(r)
  {
    if k == 0 then "" else Padded(v / 10, k - 1) + [DigitChar(v % 10)]
  }

  /** `v` without its low `k` decimal digits. */
  function DropDigits(v: nat, k: nat): nat
    decreases k
  {
    if k == 0 then v else DropDigits(v / 10, k - 1)
  }

  /** Template-literal rendering: a whole number in decimal, a fraction
      with its integer part, a point and its decimal places, `Infinity`
      with its sign, and `NaN`. */
  function NumberText(n: JsNumber): string {
    match n
    case Whole(v) => if v >= 0 then NatToString(v) else "-" + NatToString(-v)
    case Fraction(m, k) => if m >= 0 then FractionText(m, k) else "-" + FractionText(-m, k)
    case Infinite(p) => if p then "Infinity" else "-Infinity"
    case NaN => "NaN"
  }

  function FractionText(a: nat, k: nat): string {
    NatToString(DropDigits(a, k)) + "." + Padded(a, k)
  }

  // ---------------------------------------------------------------------
  // Reading back a rendered number

  /** The integer part shifted back, plus the decimal places, is the
      number. */
  lemma {:induction false} DigitsSplit(v: nat, k: nat)
    ensures Shift(DropDigits(v, k), k) + DecimalValue(Padded(v, k)) == v
    decreases k
  {
    if k > 0 {
      var r := Padded(v, k);
      assert r[..|r| - 1] == Padded(v / 10, k - 1);
      assert r[|r| - 1] == DigitChar(v % 10);
      DigitsSplit(v / 10, k - 1);
      ShiftTen(DropDigits(v, k), k - 1);
    }
  }

  /** A rendered whole number is read back as itself. */
  lemma UnsignedWhole(v: nat)
    ensures UnsignedDecimal(NatToString(v)) == Whole(v)
  {
    var u := NatToString(v);
    assert u != "Infinity" by { assert IsDigit(u[0]); }
    assert DigitRun(u, 0) == |u|;
    assert u[..|u|] == u;
    DecimalRoundTrip(v);
  }

  /** A run of digits that stops at a non-digit or the end is the run
      `DigitRun` finds. */
  lemma RunEndsAt(u: string, i: nat, j: nat)
    requires i <= j <= |u| && AllDigits(u[i..j])
    requires j == |u| || !IsDigit(u[j])
    ensures DigitRun(u, i) == j
  {
  }

  /** Digits, a point and digits make a mantissa with as many places as
      there are digits after the point. */
  lemma PointMantissa(d: string, f: string)
    requires DigitString(d) && AllDigits(f)
    ensures var r := ReadMantissa(d + "." + f);
      && r.Some?
      && r.value.digits == Shift(DecimalValue(d), |f|) + DecimalValue(f)
      && r.value.places == |f|
      && r.value.end == |d| + |f| + 1
  {
    PointRuns(d, f);
    MantissaAt(d + "." + f, |d|, |d| + |f| + 1);
  }

  /** Where the digit runs of `d.f` end. */
  lemma PointRuns(d: string, f: string)
    requires DigitString(d) && AllDigits(f)
    ensures var u := d + "." + f;
      && |u| == |d| + |f| + 1 && u[|d|] == '.'
      && u[..|d|] == d && u[|d| + 1..|u|] == f
      && DigitRun(u, 0) == |d| && DigitRun(u, |d| + 1) == |u|
  {
    var u := d + "." + f;
    assert u[..|d|] == d && u[|d|] == '.';
    RunEndsAt(u, 0, |d|);
    assert u[|d| + 1..|u|] == f;
    RunEndsAt(u, |d| + 1, |u|);
  }

  /** The mantissa read from digits up to `i`, a point, and digits up to
      `j`. */
  lemma MantissaAt(u: string, i: nat, j: nat)
    requires 0 < i < j <= |u| && u[i] == '.'
    requires DigitRun(u, 0) == i && DigitRun(u, i + 1) == j
    ensures ReadMantissa(u) == Some(Mantissa(Shift(DecimalValue(u[..i]), j - i - 1) + DecimalValue(u[i + 1..j]), j - i - 1, j))
  {
  }

  /** The mantissa of a rendered fraction is its digits and places. */
  lemma FractionMantissa(a: nat, k: nat)
    ensures ReadMantissa(FractionText(a, k)) == Some(Mantissa(a, k, |FractionText(a, k)|))
  {
    var d := NatToString(DropDigits(a, k));
    var f := Padded(a, k);
    PointMantissa(d, f);
    DecimalRoundTrip(DropDigits(a, k));
    DigitsSplit(a, k);
  }

  /** A rendered fraction is read back as itself. */
  lemma UnsignedFraction(a: nat, k: nat)
    requires k >= 1 && a % 10 != 0
    ensures UnsignedDecimal(FractionText(a, k)) == Fraction(a, k)
  {
    var u := FractionText(a, k);
    assert u != "Infinity" by { assert IsDigit(u[0]); }
    FractionMantissa(a, k);
    assert u[|u|..] == "";
    ScaledFraction(a, k);
  }

  /** A rendered number neither starts nor ends with white space and is
      not a `0x`, `0o` or `0b` literal. */
  lemma PlainText(t: string)
    requires |t| > 1 ==> t[0] == '-' || t[0] == 'I' || t[0] == 'N' || (IsDigit(t[0]) && (t[0] != '0' || t[1] == '.'))
    requires |t| > 0 && (IsDigit(t[0]) || t[0] == '-' || t[0] == 'I' || t[0] == 'N')
    requires IsDigit(t[|t| - 1]) || t[|t| - 1] == 'y' || t[|t| - 1] == 'N'
    ensures Trim(t) == t
    ensures !RadixLiteral(t)
  {
    TrimUnpadded(t);
  }

  /** Rendering a number and reading the text back with `Number` gives the
      number, for every canonical value. */
  lemma NumberTextRoundTrip(n: JsNumber)
    requires Canonical(n)
    ensures ToNumber(NumberText(n)) == n
  {
    match n
    case Whole(v) => WholeRoundTrip(v);
    case Fraction(m, k) => FractionRoundTrip(m, k);
    case Infinite(p) => InfiniteRoundTrip(p);
    case NaN =>
      var t := NumberText(n);
      PlainText(t);
      assert DigitRun(t, 0) == 0;
  }

  lemma WholeRoundTrip(v: int)
    ensures ToNumber(NumberText(Whole(v))) == Whole(v)
  {
    var t := NumberText(Whole(v));
    if v >= 0 {
      PlainText(t);
      UnsignedWhole(v);
    } else {
      assert t[1..] == NatToString(-v);
      PlainText(t);
      UnsignedWhole(-v);
    }
  }

  lemma FractionRoundTrip(m: int, k: nat)
    requires Canonical(Fraction(m, k))
    ensures ToNumber(NumberText(Fraction(m, k))) == Fraction(m, k)
  {
    var t := NumberText(Fraction(m, k));
    if m >= 0 {
      assert t[|NatToString(DropDigits(m, k))|] == '.';
      PlainText(t);
      UnsignedFraction(m, k);
    } else {
      NegateKeepsLastDigit(m);
      assert t[1..] == FractionText(-m, k);
      assert t[|NatToString(DropDigits(-m, k))| + 1] == '.';
      PlainText(t);
      UnsignedFraction(-m, k);
    }
  }

  lemma InfiniteRoundTrip(p: bool)
    ensures ToNumber(NumberText(Infinite(p))) == Infinite(p)
  {
    var t := NumberText(Infinite(p));
    PlainText(t);
    if !p {
      assert t[1..] == "Infinity";
    }
  }

  lemma IndexForms()
    ensures ToNumber("2.0") == Whole(2)
    ensures ToNumber("1e0") == Whole(1)
    ensures ToNumber("0x2") == Whole(2)
    ensures ToNumber(" 12 ") == Whole(12)
    ensures ToNumber("1.5") == Fraction(15, 1)
    ensures ToNumber("-0.5") == Fraction(-5, 1)
    ensures ToNumber("Infinity") == Infinite(true)
    ensures ToNumber("x") == NaN
  {
    PointZeroForm();
    ExponentForm();
    HexForm();
    SpacedForm();
    HalfForm();
    NegativeHalfForm();
    InfinityForm();
    LetterForm();
  }

  /** The fraction one and a half is written `1.5`. */
  lemma HalfText()
    ensures NumberText(Fraction(15, 1)) == "1.5"
  {
    assert DropDigits(15, 1) == 1;
    assert NatToString(1) == "1" by { assert DigitChar(1) == '1'; }
    assert Padded(15, 1) == "5" by { assert DigitChar(5) == '5'; }
  }

  lemma PointZeroForm()
    ensures ToNumber("2.0") == Whole(2)
  {
    var u := "2.0";
    PlainText(u);
    assert u == "2" + "." + "0";
    PointMantissa("2", "0");
    assert u[3..] == "";
    assert Scaled(20, -1) == Whole(2);
  }

  lemma ExponentForm()
    ensures ToNumber("1e0") == Whole(1)
  {
    var u := "1e0";
    PlainText(u);
    RunEndsAt(u, 0, 1);
    assert u[..1] == "1" && u[1..] == "e0" && u[1..][1..] == "0";
    assert ReadMantissa(u) == Some(Mantissa(1, 0, 1));
    assert ReadExponent("0") == Some(0);
  }

  lemma HexForm()
    ensures ToNumber("0x2") == Whole(2)
  {
  }

  lemma SpacedForm()
    ensures ToNumber(" 12 ") == Whole(12)
  {
    var s := " 12 ";
    assert SkipSpaces(s, 0) == 1;
    assert SkipSpacesBack(s, 1, 4) == 3;
    assert Trim(s) == "12";
    assert DecimalValue("12") == 12 by { assert "12"[..1] == "1"; }
  }

  lemma HalfForm()
    ensures ToNumber("1.5") == Fraction(15, 1)
  {
    var u := "1.5";
    PlainText(u);
    assert u == "1" + "." + "5";
    PointMantissa("1", "5");
    assert u[3..] == "";
    ScaledFraction(15, 1);
  }

  lemma NegativeHalfForm()
    ensures ToNumber("-0.5") == Fraction(-5, 1)
  {
    var t := "-0.5";
    PlainText(t);
    assert SignedDecimal(t) == Negate(UnsignedDecimal("0.5")) by {
      assert t[1..] == "0.5";
    }
    UnsignedHalf();
  }

  lemma UnsignedHalf()
    ensures UnsignedDecimal("0.5") == Fraction(5, 1)
  {
    var u := "0.5";
    assert u == "0" + "." + "5";
    PointMantissa("0", "5");
    assert u[3..] == "";
    ScaledFraction(5, 1);
  }

  lemma InfinityForm()
    ensures ToNumber("Infinity") == Infinite(true)
  {
  }

  lemma LetterForm()
    ensures ToNumber("x") == NaN
  {
  }
}

=== FILE: optional.dfy ===
/** An optional value, used where the code returns `null` or an
    absent value. */
module Optional {
  datatype Option<T> = None | Some(value: T)
}

=== FILE: replace_slots.dfy ===
/**
 Line replacement and the lines a list shows.

 `ListReplace` addresses the newline-separated pieces of the stored text,
 while `listPrint` numbers only the non-empty pieces. On a stored list the
 two disagree: the text ends with a newline, so its pieces end with an empty
 one, and an overwrite writes a piece that itself ends with a newline. The
 first half of this module proves what the replace code does in those
 cases; the second half defines replacement over the shown lines, the
 behaviour the code's comments describe, and proves it.
 */
module ReplaceSlots {
  import opened Text
  import opened Optional
  import opened JsNumbers
  import opened Lists

  // ---------------------------------------------------------------------
  // Replacement as written

  lemma SliceOfSnoc<T>(xs: seq<T>, y: T, i: nat)
    requires i <= |xs|
    ensures (xs + [y])[..i] == xs[..i] && (xs + [y])[i..] == xs[i..] + [y]
  {
  }

  /** `lr,name` on an existing list drops the last piece of its text, and
      the reply names that piece counted from 1. */
  lemma DeleteLastPiece(store: Store, name: string)
    requires GetListKey(name) in store
    ensures ListReplace(store, [name]).result.code == Success
    ensures var pieces := Split(store[GetListKey(name)], '\n');
      ListReplace(store, [name]).store[GetListKey(name)] == Join(pieces[..|pieces| - 1], '\n')
    ensures ListReplace(store, [name]).result.message ==
      name + ": replaced line " + NatToString(|Split(store[GetListKey(name)], '\n')|) + " with " + DeleteMarker
  {
    var key := GetListKey(name);
    var pieces := Split(store[key], '\n');
    assert PlanReplace([name]) == Some(ReplacePlan(LastSlot, DeleteMarker));
    ReplaceRangeCheck(store, [name]);
    ReplaceRewrites(store, [name]);
    ReplaceReply(store, [name]);
    assert pieces[..|pieces| - 1] + pieces[|pieces|..] == pieces[..|pieces| - 1];
  }

  /** When the pieces of a list's text end with an empty piece, `lr,name`
      removes just that piece. */
  lemma DeleteTrailingPiece(store: Store, name: string, lines: seq<string>)
    requires GetListKey(name) in store && Split(store[GetListKey(name)], '\n') == lines + [""]
    ensures ListReplace(store, [name]).result.code == Success
    ensures ListReplace(store, [name]).store[GetListKey(name)] == Join(lines, '\n')
  {
    SliceOfSnoc(lines, "", |lines|);
    DeleteLastPiece(store, name);
  }

  /** `lr,name` on a stored non-empty list deletes no line: the "last
      line" is the empty piece after the final newline, so only that
      newline goes and the list shows the same lines. */
  lemma DeleteLastKeepsLines(store: Store, name: string, lines: seq<string>)
    requires GetListKey(name) in store && store[GetListKey(name)] == Serialize(lines)
    requires WellFormedLines(lines) && |lines| >= 1
    ensures ListReplace(store, [name]).result.code == Success
    ensures VisibleLines(ListReplace(store, [name]).store[GetListKey(name)]) == lines
  {
    DeleteLastStoresJoin(store, name, lines);
    assert VisibleLines(Join(lines, '\n')) == lines by {
      SplitJoin(lines, '\n');
      FilterKeepsAll(lines, KeptLine);
    }
  }

  lemma DeleteLastStoresJoin(store: Store, name: string, lines: seq<string>)
    requires GetListKey(name) in store && store[GetListKey(name)] == Serialize(lines)
    requires WellFormedLines(lines)
    ensures ListReplace(store, [name]).result.code == Success
    ensures ListReplace(store, [name]).store[GetListKey(name)] == Join(lines, '\n')
  {
    SplitSerialized(lines);
    DeleteTrailingPiece(store, name, lines);
  }

  /** The reply to `lr,name` on a stored list names the empty piece after
      the final newline: one past the last shown line. */
  lemma DeleteLastReply(store: Store, name: string, lines: seq<string>)
    requires GetListKey(name) in store && store[GetListKey(name)] == Serialize(lines)
    requires WellFormedLines(lines)
    ensures ListReplace(store, [name]).result.code == Success
    ensures ListReplace(store, [name]).result.message ==
      name + ": replaced line " + NatToString(|lines| + 1) + " with " + DeleteMarker
  {
    assert |Split(store[GetListKey(name)], '\n')| == |lines| + 1 by {
      SplitSerialized(lines);
    }
    DeleteLastPiece(store, name);
  }

  /** `lr,name,i` with `i` naming an existing piece drops exactly that
      piece. */
  lemma DeleteAtPiece(store: Store, name: string, i: nat)
    requires GetListKey(name) in store
    requires 1 <= i <= |Split(store[GetListKey(name)], '\n')|
    ensures ListReplace(store, [name, NatToString(i)]).result.code == Success
    ensures var pieces := Split(store[GetListKey(name)], '\n');
      ListReplace(store, [name, NatToString(i)]).store[GetListKey(name)] ==
        Join(pieces[..i - 1] + pieces[i..], '\n')
  {
    var args := [name, NatToString(i)];
    NumberOfNatText(i);
    ReplaceArgumentsResolve(args);
    assert PlanReplace(args) == Some(ReplacePlan(Whole(i - 1), DeleteMarker));
    ReplaceRangeCheck(store, args);
    ReplaceRewrites(store, args);
  }

  /** `lr,name,i` on a stored list, with `i` a shown line number, deletes
      exactly line `i`, and the list stays in its stored form. */
  lemma DeleteLineAt(store: Store, name: string, lines: seq<string>, i: nat)
    requires GetListKey(name) in store && store[GetListKey(name)] == Serialize(lines)
    requires WellFormedLines(lines) && 1 <= i <= |lines|
    ensures ListReplace(store, [name, NatToString(i)]).result.code == Success
    ensures ListReplace(store, [name, NatToString(i)]).store[GetListKey(name)] ==
      Serialize(lines[..i - 1] + lines[i..])
    ensures VisibleLines(ListReplace(store, [name, NatToString(i)]).store[GetListKey(name)]) ==
      lines[..i - 1] + lines[i..]
  {
    var rest := lines[..i - 1] + lines[i..];
    SplitSerialized(lines);
    DeletePieceOfSerialized(lines, i);
    DeleteAtPiece(store, name, i);
    VisibleSerialized(rest);
  }

  /** Dropping piece `i` from the pieces of a stored list stores the list
      without line `i`. */
  lemma DeletePieceOfSerialized(lines: seq<string>, i: nat)
    requires WellFormedLines(lines) && 1 <= i <= |lines|
    ensures var pieces := lines + [""];
      var rest := lines[..i - 1] + lines[i..];
      && Join(pieces[..i - 1] + pieces[i..], '\n') == Serialize(rest)
      && WellFormedLines(rest)
  {
    var rest := lines[..i - 1] + lines[i..];
    SliceOfSnoc(lines, "", i);
    assert (lines + [""])[..i - 1] + (lines + [""])[i..] == rest + [""];
    if |rest| > 0 {
      JoinSnoc(rest, "", '\n');
    } else {
      assert rest + [""] == [""];
    }
    forall k | 0 <= k < |rest| ensures WellFormedLine(rest[k]) {
      if k < i - 1 {
        assert rest[k] == lines[k];
      } else {
        assert rest[k] == lines[k + 1];
      }
    }
  }

  /** The text left by `lr,name` lacks its final newline, so a following
      append joins the new text onto the old last line. */
  lemma AppendAfterDeleteLastMerges(store: Store, name: string, lines: seq<string>, line: string)
    requires GetListKey(name) in store && store[GetListKey(name)] == Serialize(lines)
    requires WellFormedLines(lines) && |lines| >= 1 && WellFormedLine(line) && !IsBlank(line)
    ensures var after := ListReplace(store, [name]).store;
      VisibleLines(ListAppend(after, [name, line]).store[GetListKey(name)]) ==
        lines[..|lines| - 1] + [lines[|lines| - 1] + line]
  {
    var key := GetListKey(name);
    DeleteLastStoresJoin(store, name, lines);
    var after := ListReplace(store, [name]).store;
    var merged := lines[..|lines| - 1] + [lines[|lines| - 1] + line];
    assert ListAppend(after, [name, line]).store[key] == Join(lines, '\n') + line + "\n";
    MergeLastLine(lines, line);
    VisibleSerialized(merged);
  }

  /** Joining the lines and then appending text is joining the lines with
      the text added to the last one. */
  lemma MergeLastLine(lines: seq<string>, line: string)
    requires WellFormedLines(lines) && |lines| >= 1 && WellFormedLine(line)
    ensures var merged := lines[..|lines| - 1] + [lines[|lines| - 1] + line];
      WellFormedLines(merged) && Join(lines, '\n') + line == Join(merged, '\n')
  {
    var n := |lines|;
    var merged := lines[..n - 1] + [lines[n - 1] + line];
    assert WellFormedLines(merged) by {
      forall k | 0 <= k < |merged| ensures WellFormedLine(merged[k]) {
        if k < n - 1 {
          assert merged[k] == lines[k];
        } else {
          assert merged[k] == lines[n - 1] + line;
          assert WellFormedLine(lines[n - 1]);
          assert '\n' !in lines[n - 1] + line;
        }
      }
    }
    if n == 1 {
      assert merged == [lines[0] + line];
    } else {
      assert lines == lines[..n - 1] + [lines[n - 1]];
      JoinSnoc(lines[..n - 1], lines[n - 1], '\n');
      JoinSnoc(lines[..n - 1], lines[n - 1] + line, '\n');
    }
  }

  /** `lr,name,text` on a stored list does not replace its last line: the
      text goes into the empty piece after the final newline, so it is
      added as a new last line. */
  lemma OverwriteLastAppends(store: Store, name: string, lines: seq<string>, text: string)
    requires GetListKey(name) in store && store[GetListKey(name)] == Serialize(lines)
    requires WellFormedLines(lines) && WellFormedLine(text) && !IsNumberString(text)
    ensures ListReplace(store, [name, text]).result.code == Success
    ensures ListReplace(store, [name, text]).store[GetListKey(name)] == Serialize(lines + [text])
    ensures VisibleLines(ListReplace(store, [name, text]).store[GetListKey(name)]) == lines + [text]
  {
    SplitSerialized(lines);
    var pieces := lines + [""];
    ReplaceArgumentsResolve([name, text]);
    assert text + "\n" != DeleteMarker by {
      assert |text + "\n"| > 1;
    }
    ReplaceRewrites(store, [name, text]);
    assert pieces[|lines| := text + "\n"] == lines + [text + "\n"];
    if |lines| == 0 {
      assert lines + [text + "\n"] == [text + "\n"];
      assert lines + [text] == [text];
    } else {
      JoinSnoc(lines, text + "\n", '\n');
      JoinSnoc(lines, text, '\n');
    }
    WellFormedAppend(lines, text);
    VisibleSerialized(lines + [text]);
  }

  /** Rendering a positive number and reading it back through `Number`
      gives the number. */
  lemma NumberOfNatText(i: nat)
    ensures IsNumberString(NatToString(i))
    ensures ToNumber(NatToString(i)) == Whole(i)
  {
    DecimalRoundTrip(i);
  }

  /** Writing a text plus newline into one piece of a join splits that
      piece in two: the text, then an empty piece. */
  lemma OverwritePieceSplit(pieces: seq<string>, j: nat, text: string)
    requires j < |pieces| && forall k :: 0 <= k < |pieces| ==> '\n' !in pieces[k]
    requires '\n' !in text
    ensures Split(Join(pieces[j := text + "\n"], '\n'), '\n') == pieces[..j] + [text, ""] + pieces[j + 1..]
  {
    var p := pieces[..j];
    var q := pieces[j + 1..];
    var x := text + "\n";
    assert x == text + ['\n'] + "";
    assert pieces[j := x] == p + [x] + q;
    JoinCutPiece(p, text, "", q, '\n');
    var cut := p + [text, ""] + q;
    forall k | 0 <= k < |cut| ensures '\n' !in cut[k] {
      if k < j {
        assert cut[k] == pieces[k];
      } else if k > j + 1 {
        assert cut[k] == q[k - j - 2] == pieces[k - 1];
      }
    }
    SplitJoin(cut, '\n');
  }

  /** `lr,name,i,text` with `i` naming an existing piece writes the text
      into that piece and an empty piece right after it. */
  lemma OverwriteAtPiece(store: Store, name: string, i: nat, text: string)
    requires GetListKey(name) in store && WellFormedLine(text)
    requires 1 <= i <= |Split(store[GetListKey(name)], '\n')|
    ensures ListReplace(store, [name, NatToString(i), text]).result.code == Success
    ensures var pieces := Split(store[GetListKey(name)], '\n');
      Split(ListReplace(store, [name, NatToString(i), text]).store[GetListKey(name)], '\n') ==
        pieces[..i - 1] + [text, ""] + pieces[i..]
  {
    OverwritePiece(store, name, i, text);
    OverwritePieceSplit(Split(store[GetListKey(name)], '\n'), i - 1, text);
  }

  /** `lr,name,i,text` with `i` naming an existing piece stores the text
      and its newline in that piece. */
  lemma OverwritePiece(store: Store, name: string, i: nat, text: string)
    requires GetListKey(name) in store && WellFormedLine(text)
    requires 1 <= i <= |Split(store[GetListKey(name)], '\n')|
    ensures ListReplace(store, [name, NatToString(i), text]).result.code == Success
    ensures var pieces := Split(store[GetListKey(name)], '\n');
      ListReplace(store, [name, NatToString(i), text]).store[GetListKey(name)] ==
        Join(pieces[i - 1 := text + "\n"], '\n')
  {
    var args := [name, NatToString(i), text];
    NumberOfNatText(i);
    ReplaceArgumentsResolve(args);
    assert text + "\n" != DeleteMarker by {
      assert |text + "\n"| > 1;
    }
    assert PlanReplace(args) == Some(ReplacePlan(Whole(i - 1), text + "\n"));
    ReplaceRangeCheck(store, args);
    ReplaceRewrites(store, args);
  }

  /** Filtering the pieces left by an overwrite of line `i` gives the lines
      with line `i` replaced. */
  lemma OverwrittenPiecesShow(lines: seq<string>, i: nat, text: string)
    requires WellFormedLines(lines) && WellFormedLine(text) && 1 <= i <= |lines|
    ensures Filter(lines[..i - 1] + [text, ""] + lines[i..] + [""], KeptLine) == lines[i - 1 := text]
  {
    var p := lines[..i - 1];
    var q := lines[i..];
    assert Filter(p + [text, ""] + q + [""], KeptLine)
      == Filter(p, KeptLine) + Filter([text, ""], KeptLine) + Filter(q, KeptLine) + Filter([""], KeptLine) by {
      FilterConcat(p + [text, ""] + q, [""], KeptLine);
      FilterConcat(p + [text, ""], q, KeptLine);
      FilterConcat(p, [text, ""], KeptLine);
    }
    assert Filter(p, KeptLine) == p by {
      assert forall k :: 0 <= k < |p| ==> p[k] == lines[k];
      FilterKeepsAll(p, KeptLine);
    }
    assert Filter(q, KeptLine) == q by {
      assert forall k :: 0 <= k < |q| ==> q[k] == lines[k + i];
      FilterKeepsAll(q, KeptLine);
    }
    assert Filter([text, ""], KeptLine) == [text];
    assert Filter([""], KeptLine) == [];
    assert lines[i - 1 := text] == p + [text] + q;
  }

  /** `lr,name,i,text` on a stored list shows the intended lines, but the
      overwritten piece carries its own newline, so the stored text gains
      an empty piece right after it: from then on, the piece numbers the
      replace command uses no longer match the line numbers `listPrint`
      shows. */
  lemma OverwriteLeavesEmptyPiece(store: Store, name: string, lines: seq<string>, i: nat, text: string)
    requires GetListKey(name) in store && store[GetListKey(name)] == Serialize(lines)
    requires WellFormedLines(lines) && WellFormedLine(text) && 1 <= i <= |lines|
    ensures ListReplace(store, [name, NatToString(i), text]).result.code == Success
    ensures var after := ListReplace(store, [name, NatToString(i), text]).store[GetListKey(name)];
      && Split(after, '\n') == lines[..i - 1] + [text, ""] + lines[i..] + [""]
      && VisibleLines(after) == lines[i - 1 := text]
  {
    var pieces := lines + [""];
    SplitSerialized(lines);
    OverwriteAtPiece(store, name, i, text);
    SliceOfSnoc(lines, "", i - 1);
    SliceOfSnoc(lines, "", i);
    assert pieces[..i - 1] + [text, ""] + pieces[i..] == lines[..i - 1] + [text, ""] + lines[i..] + [""];
    OverwrittenPiecesShow(lines, i, text);
  }

  /** A second overwrite on the pieces `z`, ``, `b`, `` lands in the empty
      piece the first one left. */
  lemma SecondOverwriteFillsGap(store: Store, name: string, z: string, b: string, y: string)
    requires GetListKey(name) in store && Split(store[GetListKey(name)], '\n') == [z, "", b, ""]
    requires WellFormedLine(y)
    ensures Split(ListReplace(store, [name, NatToString(2), y]).store[GetListKey(name)], '\n') ==
      [z, y, "", b, ""]
  {
    var pieces := Split(store[GetListKey(name)], '\n');
    assert pieces[..2 - 1] + [y, ""] + pieces[2..] == [z, y, "", b, ""] by {
      assert pieces[..1] == [z] && pieces[2..] == [b, ""];
    }
    OverwriteAtPiece(store, name, 2, y);
  }

  /** The mismatch in two steps: on a list of two lines `a`, `b`,
      overwriting line 1 with `z` and then line 2 with `y` leaves three
      lines, `z`, `y`, `b`, where the printed numbering promises `z`, `y`. */
  lemma OverwriteTwiceInserts(store: Store, name: string, a: string, b: string, z: string, y: string)
    requires GetListKey(name) in store && store[GetListKey(name)] == Serialize([a, b])
    requires WellFormedLines([a, b]) && WellFormedLine(z) && WellFormedLine(y)
    ensures var first := ListReplace(store, [name, NatToString(1), z]).store;
      var second := ListReplace(first, [name, NatToString(2), y]).store;
      VisibleLines(second[GetListKey(name)]) == [z, y, b]
  {
    var first := ListReplace(store, [name, NatToString(1), z]).store;
    FirstOverwriteLeavesGap(store, name, a, b, z);
    SecondOverwriteFillsGap(first, name, z, b, y);
    assert WellFormedLine([a, b][1]);
    ShownAfterGap(z, y, b);
  }

  lemma FirstOverwriteLeavesGap(store: Store, name: string, a: string, b: string, z: string)
    requires GetListKey(name) in store && store[GetListKey(name)] == Serialize([a, b])
    requires WellFormedLines([a, b]) && WellFormedLine(z)
    ensures Split(ListReplace(store, [name, NatToString(1), z]).store[GetListKey(name)], '\n') == [z, "", b, ""]
  {
    OverwriteLeavesEmptyPiece(store, name, [a, b], 1, z);
    assert [a, b][..0] + [z, ""] + [a, b][1..] + [""] == [z, "", b, ""];
  }

  lemma ShownAfterGap(z: string, y: string, b: string)
    requires WellFormedLine(z) && WellFormedLine(y) && WellFormedLine(b)
    ensures Filter([z, y, "", b, ""], KeptLine) == [z, y, b]
  {
    FilterConcat([z, y], ["", b, ""], KeptLine);
    FilterConcat([""], [b, ""], KeptLine);
    FilterConcat([b], [""], KeptLine);
    assert [z, y, "", b, ""] == [z, y] + ["", b, ""];
    assert ["", b, ""] == [""] + [b, ""];
    assert [b, ""] == [b] + [""];
  }

  /** Rewriting with an index that is not a whole number but passes the
      range check keeps the text as it was. */
  lemma RewriteWithNonWhole(text: string, index: JsNumber, line: string)
    requires !index.Whole? && !OutOfRange(index, Split(text, '\n'))
    ensures RewriteText(text, ReplacePlan(index, line)) == Some(Rewritten(text, index))
  {
    var pieces := Split(text, '\n');
    PiecesAreNotMarkers(text);
    FilterKeepsAll(pieces, NotDeleteMarker);
    JoinSplit(text, '\n');
  }

  /** A third argument that `Number` does not read as a whole number gives
      an index that addresses no piece. When that index passes the range
      check (always for `NaN`, and for a fraction whose value lies within
      the pieces) the command reports success with the number as typed and
      stores the list unchanged. */
  lemma NonWholeIndexIsSilent(store: Store, name: string, index: string, text: string)
    requires GetListKey(name) in store && !ToNumber(index).Whole?
    requires !OutOfRange(AddNumber(ToNumber(index), -1), Split(store[GetListKey(name)], '\n'))
    ensures ListReplace(store, [name, index, text]) ==
      Outcome(store, CommandResult(Success,
        name + ": replaced line " + NumberText(ToNumber(index)) + " with " + text + "\n"))
  {
    var n := ToNumber(index);
    assert PlanReplace([name, index, text]) == Some(ReplacePlan(AddNumber(n, -1), text + "\n"));
    RewriteWithNonWhole(store[GetListKey(name)], AddNumber(n, -1), text + "\n");
    AddNumberInverse(n, -1);
  }

  /** A word as index: success with line `NaN`, list unchanged. */
  lemma NonNumericIndexIsSilent(store: Store, name: string, index: string, text: string)
    requires GetListKey(name) in store && ToNumber(index) == NaN
    ensures ListReplace(store, [name, index, text]) ==
      Outcome(store, CommandResult(Success, name + ": replaced line " + "NaN" + " with " + text + "\n"))
  {
    NonWholeIndexIsSilent(store, name, index, text);
  }

  /** An index read as one and a half, such as `1.5`: success with line
      `1.5` and the list unchanged, on every stored list. */
  lemma FractionalIndexIsSilent(store: Store, name: string, index: string, text: string)
    requires GetListKey(name) in store && ToNumber(index) == Fraction(15, 1)
    ensures ListReplace(store, [name, index, text]) ==
      Outcome(store, CommandResult(Success, name + ": replaced line " + "1.5" + " with " + text + "\n"))
  {
    var n := ToNumber(index);
    HalfInRange(Split(store[GetListKey(name)], '\n'));
    NonWholeIndexIsSilent(store, name, index, text);
    assert NumberText(n) == "1.5" by { HalfText(); }
  }

  /** One and a half, less one, lies within any non-empty piece list. */
  lemma HalfInRange(pieces: seq<string>)
    requires |pieces| >= 1
    ensures !OutOfRange(AddNumber(Fraction(15, 1), -1), pieces)
  {
    assert Shift(-1, 1) == -10;
    assert AddNumber(Fraction(15, 1), -1) == Fraction(5, 1);
    assert Shift(|pieces|, 1) == 10 * |pieces|;
  }

  // ---------------------------------------------------------------------
  // Replacement over the shown lines

  /** The index a plan addresses among the shown lines: the last-line
      marker is the last shown line, and anything that is not a whole
      number in range is rejected. */
  function VisibleIndex(index: JsNumber, lines: seq<string>): (r: Option<nat>)
    ensures r.Some? ==> r.value < |lines|
    ensures index == LastSlot ==> (r.Some? <==> |lines| > 0)
    ensures index == LastSlot && |lines| > 0 ==> r == Some(|lines| - 1)
    ensures index != LastSlot ==> (r.Some? <==> index.Whole? && 0 <= index.value < |lines|)
    ensures index != LastSlot && r.Some? ==> r.value == index.value
  {
    var resolved := if index == LastSlot then Whole(|lines| - 1) else index;
    if resolved.Whole? && 0 <= resolved.value < |lines| then Some(resolved.value) else None
  }

  /** The shown lines after deleting or overwriting line `i`. */
  function EditLines(lines: seq<string>, i: nat, line: string): (r: seq<string>)
    requires i < |lines|
    requires line != "" && line[|line| - 1] == '\n'
  {
    if line == DeleteMarker then lines[..i] + lines[i + 1..]
    else lines[i := line[..|line| - 1]]
  }

  /** `listReplace` with its indices counted over the shown lines, as the
      code's comments describe it: the last line is the last shown line,
      deletion removes a shown line, overwriting replaces one, and the
      list is stored in its serialized form. */
  function ListReplaceVisible(store: Store, args: seq<string>): (r: Outcome)
    ensures r.result.code != Success ==> r.store == store && r.result.code == UserError
    ensures r.result.code == Success ==>
      |args| >= 1 && GetListKey(args[0]) in store && OnlyKeyWritten(store, r.store, GetListKey(args[0]))
    ensures |args| == 0 ==> r == Fail(store, ListNameNotGiven)
    ensures |args| > 3 ==> r == Fail(store, TooManyArguments)
    ensures 1 <= |args| <= 3 && GetListKey(args[0]) !in store ==>
      r == Fail(store, "Could not replace line in list " + args[0])
  {
    if |args| < 1 then Fail(store, ListNameNotGiven)
    else
      var listName := args[0];
      match PlanReplace(args)
      case None => Fail(store, TooManyArguments)
      case Some(plan) =>
        var key := GetListKey(listName);
        if key !in store then Fail(store, "Could not replace line in list " + listName)
        else
          var lines := VisibleLines(store[key]);
          match VisibleIndex(plan.index, lines)
          case None => Fail(store, InvalidReplaceIndex)
          case Some(i) =>
            Succeed(store[key := Serialize(EditLines(lines, i, plan.line))],
              listName + ": replaced line " + NatToString(i + 1) + " with " + plan.line)
  }

  /** The range check of the corrected replace: on an existing list with a
      valid argument count, it succeeds exactly when the plan's index
      resolves to a shown line, and otherwise replies "Invalid replace line
      index." and leaves the store as it was. */
  lemma VisibleRangeCheck(store: Store, args: seq<string>)
    requires 1 <= |args| <= 3 && GetListKey(args[0]) in store
    ensures PlanReplace(args).Some?
    ensures var i := VisibleIndex(PlanReplace(args).value.index, VisibleLines(store[GetListKey(args[0])]));
      && (ListReplaceVisible(store, args).result.code == Success <==> i.Some?)
      && (i.None? ==> ListReplaceVisible(store, args) == Fail(store, InvalidReplaceIndex))
  {
  }

  /** Every replacement line a plan carries ends with a newline. */
  lemma PlanLineEndsWithNewline(args: seq<string>)
    requires |args| >= 1 && PlanReplace(args).Some?
    ensures PlanReplace(args).value.line != ""
    ensures PlanReplace(args).value.line[|PlanReplace(args).value.line| - 1] == '\n'
  {
  }

  /** Replacement over the shown lines does what the comments promise: the
      resolved index is a shown line (the last one for the last-line
      marker), deletion removes exactly that line, overwriting with a
      one-line text replaces exactly that line, every other line keeps its
      value and order, and the list is stored serialized, so stored pieces
      and shown lines stay in step. */
  lemma VisibleReplaceEdits(store: Store, args: seq<string>)
    requires ListReplaceVisible(store, args).result.code == Success
    ensures |args| >= 1 && PlanReplace(args).Some? && GetListKey(args[0]) in store
    ensures var key := GetListKey(args[0]);
      var lines := VisibleLines(store[key]);
      var plan := PlanReplace(args).value;
      var after := ListReplaceVisible(store, args).store[key];
      && VisibleIndex(plan.index, lines).Some?
      && var i := VisibleIndex(plan.index, lines).value;
      && (plan.index == LastSlot ==> i == |lines| - 1)
      && (plan.line == DeleteMarker ==> VisibleLines(after) == lines[..i] + lines[i + 1..])
      && (plan.line != DeleteMarker && '\n' !in plan.line[..|plan.line| - 1] ==>
            VisibleLines(after) == lines[i := plan.line[..|plan.line| - 1]])
      && (plan.line == DeleteMarker || '\n' !in plan.line[..|plan.line| - 1] ==>
            Split(after, '\n') == VisibleLines(after) + [""])
  {
    var key := GetListKey(args[0]);
    var lines := VisibleLines(store[key]);
    var plan := PlanReplace(args).value;
    PlanLineEndsWithNewline(args);
    var i := VisibleIndex(plan.index, lines).value;
    SerializeVisibleStable(store[key]);
    var edited := EditLines(lines, i, plan.line);
    if plan.line == DeleteMarker {
      assert WellFormedLines(edited) by {
        forall k | 0 <= k < |edited| ensures WellFormedLine(edited[k]) {
          if k < i {
            assert edited[k] == lines[k];
          } else {
            assert edited[k] == lines[k + 1];
          }
        }
      }
      VisibleSerialized(edited);
      SplitSerialized(edited);
    } else {
      var t := plan.line[..|plan.line| - 1];
      if '\n' !in t {
        assert WellFormedLines(edited) by {
          forall k | 0 <= k < |edited| ensures WellFormedLine(edited[k]) {
            if k != i {
              assert edited[k] == lines[k];
            }
          }
        }
        VisibleSerialized(edited);
        SplitSerialized(edited);
      }
    }
  }

  /** On a stored list, the shown lines are the list and every plan the
      arguments make is read against them. */
  lemma VisibleOfStored(store: Store, name: string, lines: seq<string>)
    requires GetListKey(name) in store && store[GetListKey(name)] == Serialize(lines)
    requires WellFormedLines(lines)
    ensures VisibleLines(store[GetListKey(name)]) == lines
  {
    VisibleSerialized(lines);
  }

  /** Corrected deletion of the last line: `lr,name` removes the last
      shown line. */
  lemma VisibleDeleteLast(store: Store, name: string, lines: seq<string>)
    requires GetListKey(name) in store && store[GetListKey(name)] == Serialize(lines)
    requires WellFormedLines(lines) && |lines| >= 1
    ensures ListReplaceVisible(store, [name]).result.code == Success
    ensures ListReplaceVisible(store, [name]).store[GetListKey(name)] == Serialize(lines[..|lines| - 1])
  {
    VisibleOfStored(store, name, lines);
    assert PlanReplace([name]) == Some(ReplacePlan(LastSlot, DeleteMarker));
    assert lines[..|lines| - 1] + lines[|lines|..] == lines[..|lines| - 1];
  }

  /** Corrected overwrite of the last line: `lr,name,text` replaces the
      last shown line with the text. */
  lemma VisibleOverwriteLast(store: Store, name: string, lines: seq<string>, text: string)
    requires GetListKey(name) in store && store[GetListKey(name)] == Serialize(lines)
    requires WellFormedLines(lines) && |lines| >= 1 && WellFormedLine(text) && !IsNumberString(text)
    ensures ListReplaceVisible(store, [name, text]).result.code == Success
    ensures ListReplaceVisible(store, [name, text]).store[GetListKey(name)] ==
      Serialize(lines[|lines| - 1 := text])
  {
    VisibleOfStored(store, name, lines);
    ReplaceArgumentsResolve([name, text]);
    assert text + "\n" != DeleteMarker by {
      assert |text + "\n"| > 1;
    }
    assert (text + "\n")[..|text|] == text;
  }

  /** Corrected overwrite of line `i`: the shown lines are the list with
      line `i` replaced, and the stored text is again the serialized list,
      with no empty piece left behind. */
  lemma VisibleOverwriteAt(store: Store, name: string, lines: seq<string>, i: nat, text: string)
    requires GetListKey(name) in store && store[GetListKey(name)] == Serialize(lines)
    requires WellFormedLines(lines) && WellFormedLine(text) && 1 <= i <= |lines|
    ensures ListReplaceVisible(store, [name, NatToString(i), text]).result.code == Success
    ensures ListReplaceVisible(store, [name, NatToString(i), text]).store[GetListKey(name)] ==
      Serialize(lines[i - 1 := text])
  {
    var args := [name, NatToString(i), text];
    VisibleOfStored(store, name, lines);
    NumberOfNatText(i);
    ReplaceArgumentsResolve(args);
    assert PlanReplace(args) == Some(ReplacePlan(Whole(i - 1), text + "\n"));
    assert text + "\n" != DeleteMarker by {
      assert |text + "\n"| > 1;
    }
    assert (text + "\n")[..|text|] == text;
  }

  /** Overwriting keeps a list well formed. */
  lemma WellFormedUpdate(lines: seq<string>, i: nat, text: string)
    requires WellFormedLines(lines) && WellFormedLine(text) && i < |lines|
    ensures WellFormedLines(lines[i := text])
  {
    var updated := lines[i := text];
    forall k | 0 <= k < |updated| ensures WellFormedLine(updated[k]) {
      if k != i {
        assert updated[k] == lines[k];
      }
    }
  }

  /** With the corrected replacement, overwriting line 1 and then line 2
      of the list `a`, `b` gives `z`, `y`: stored pieces and shown line
      numbers stay in step. */
  lemma VisibleOverwriteTwice(store: Store, name: string, a: string, b: string, z: string, y: string)
    requires GetListKey(name) in store && store[GetListKey(name)] == Serialize([a, b])
    requires WellFormedLines([a, b]) && WellFormedLine(z) && WellFormedLine(y)
    ensures var first := ListReplaceVisible(store, [name, NatToString(1), z]).store;
      var second := ListReplaceVisible(first, [name, NatToString(2), y]).store;
      second[GetListKey(name)] == Serialize([z, y])
  {
    var first := ListReplaceVisible(store, [name, NatToString(1), z]).store;
    VisibleOverwriteAt(store, name, [a, b], 1, z);
    assert [a, b][0 := z] == [z, b];
    WellFormedUpdate([a, b], 0, z);
    VisibleOverwriteAt(first, name, [z, b], 2, y);
    assert [z, b][1 := y] == [z, y];
  }

  /** Corrected handling of an index that is not a whole number (a word,
      a fraction, an infinity): it is rejected as invalid and the list is
      left as it was. */
  lemma VisibleRejectsNonWholeIndex(store: Store, name: string, index: string, text: string)
    requires GetListKey(name) in store && !ToNumber(index).Whole?
    ensures ListReplaceVisible(store, [name, index, text]) == Fail(store, InvalidReplaceIndex)
  {
    assert PlanReplace([name, index, text]) == Some(ReplacePlan(AddNumber(ToNumber(index), -1), text + "\n"));
  }
}

=== FILE: text.dfy ===
/**
 String helpers with the behaviour of the JavaScript string methods the
 gateway relies on: `trim`, `toLowerCase`, `split` on a one-character
 separator, `Array.prototype.join`, `Array.prototype.filter`, and decimal
 rendering and parsing of whole numbers.
 */
module Text {

  /** White space as ECMAScript's `String.prototype.trim` removes it: the
      WhiteSpace and LineTerminator code points, including every member of
      the Unicode `Zs` category. */
  predicate IsSpace(c: char) {
    || c == '\t' || c == '\n' || c == '\U{0B}' || c == '\U{0C}' || c == '\r'
    || c == ' ' || c == '\U{A0}' || c == '\U{1680}'
    || ('\U{2000}' <= c <= '\U{200A}')
    || c == '\U{2028}' || c == '\U{2029}' || c == '\U{202F}' || c == '\U{205F}'
    || c == '\U{3000}' || c == '\U{FEFF}'
  }

  /** A string made only of white space (the empty string included). */
  predicate IsBlank(s: string) {
    forall k :: 0 <= k < |s| ==> IsSpace(s[k])
  }

  predicate IsDigit(c: char) {
    '0' <= c <= '9'
  }

  predicate AllDigits(s: string) {
    forall k :: 0 <= k < |s| ==> IsDigit(s[k])
  }

  /** The index of the first non-space character at or after `i`. */
  function SkipSpaces(s: string, i: nat): (j: nat)
    requires i <= |s|
    ensures i <= j <= |s|
    decreases |s| - i
  {
    if i < |s| && IsSpace(s[i]) then SkipSpaces(s, i + 1) else i
  }

  lemma {:induction false} SkipSpacesSkipsSpace(s: string, i: nat)
    requires i <= |s|
    ensures forall k :: i <= k < SkipSpaces(s, i) ==> IsSpace(s[k])
    ensures SkipSpaces(s, i) == |s| || !IsSpace(s[SkipSpaces(s, i)])
    decreases |s| - i
  {
    if i < |s| && IsSpace(s[i]) {
      SkipSpacesSkipsSpace(s, i + 1);
    }
  }

  /** The index just past the last non-space character before `j`, not
      going below `lo`. */
  function SkipSpacesBack(s: string, lo: nat, j: nat): (e: nat)
    requires lo <= j <= |s|
    ensures lo <= e <= j
    decreases j
  {
    if lo < j && IsSpace(s[j - 1]) then SkipSpacesBack(s, lo, j - 1) else j
  }

  lemma {:induction false} SkipSpacesBackSkipsSpace(s: string, lo: nat, j: nat)
    requires lo <= j <= |s|
    ensures forall k :: SkipSpacesBack(s, lo, j) <= k < j ==> IsSpace(s[k])
    ensures SkipSpacesBack(s, lo, j) == lo || !IsSpace(s[SkipSpacesBack(s, lo, j) - 1])
    decreases j
  {
    if lo < j && IsSpace(s[j - 1]) {
      SkipSpacesBackSkipsSpace(s, lo, j - 1);
    }
  }

  /** `String.prototype.trim`: leading and trailing white space removed. */
  function Trim(s: string): string {
    var i := SkipSpaces(s, 0);
    s[i..SkipSpacesBack(s, i, |s|)]
  }

  /** Trimming cuts only white space, and only from the two ends; it leaves
      nothing exactly when the string is blank, and otherwise leaves text
      that neither starts nor ends with white space. */
  lemma TrimBlank(s: string)
    ensures exists i, j :: 0 <= i <= j <= |s| && Trim(s) == s[i..j] && IsBlank(s[..i]) && IsBlank(s[j..])
    ensures Trim(s) == [] <==> IsBlank(s)
    ensures Trim(s) == [] || (!IsSpace(Trim(s)[0]) && !IsSpace(Trim(s)[|Trim(s)| - 1]))
  {
    var i := SkipSpaces(s, 0);
    var j := SkipSpacesBack(s, i, |s|);
    SkipSpacesSkipsSpace(s, 0);
    SkipSpacesBackSkipsSpace(s, i, |s|);
    assert Trim(s) == s[i..j] && IsBlank(s[..i]) && IsBlank(s[j..]);
    if j > i {
      assert Trim(s)[0] == s[i];
      assert Trim(s)[|Trim(s)| - 1] == s[j - 1];
    }
  }

  /** Trimming twice is trimming once: trimmed text (every argument the
      lexer produces) is a fixed point of `Trim`. */
  lemma TrimIdempotent(s: string)
    ensures Trim(Trim(s)) == Trim(s)
  {
    var r := Trim(s);
    TrimBlank(s);
    if r != [] {
      assert SkipSpaces(r, 0) == 0;
      assert SkipSpacesBack(r, 0, |r|) == |r|;
    }
  }

  /** ASCII `toLowerCase`. */
  function LowerChar(c: char): char {
    if 'A' <= c <= 'Z' then (c as int - 'A' as int + 'a' as int) as char else c
  }

  function ToLower(s: string): (r: string)
    ensures |r| == |s|
    ensures forall k :: 0 <= k < |s| ==> r[k] == LowerChar(s[k])
  {
    seq(|s|, k requires 0 <= k < |s| => LowerChar(s[k]))
  }

  /** Number of occurrences of `c` in `s`. */
  function Count(s: string, c: char): nat {
    if |s| == 0 then 0 else (if s[0] == c then 1 else 0) + Count(s[1..], c)
  }

  /** `s.split(sep)` for a one-character separator: the pieces between
      separators, so there is always one more piece than separators and no
      piece contains the separator. */
  function Split(s: string, sep: char): (r: seq<string>)
    ensures |r| == Count(s, sep) + 1
    ensures forall k :: 0 <= k < |r| ==> sep !in r[k]
    decreases |s|
  {
    if |s| == 0 then [""]
    else
      var rest := Split(s[1..], sep);
      if s[0] == sep then [""] + rest
      else [[s[0]] + rest[0]] + rest[1..]
  }

  /** `xs.join(sep)` for a one-character separator. */
  function Join(xs: seq<string>, sep: char): string {
    if |xs| == 0 then ""
    else if |xs| == 1 then xs[0]
    else xs[0] + [sep] + Join(xs[1..], sep)
  }

  /** `xs.filter(keep)`. */
  function Filter<T>(xs: seq<T>, keep: T -> bool): (r: seq<T>)
    ensures |r| <= |xs|
    ensures forall k :: 0 <= k < |r| ==> keep(r[k])
  {
    if |xs| == 0 then []
    else if keep(xs[0]) then [xs[0]] + Filter(xs[1..], keep)
    else Filter(xs[1..], keep)
  }

  lemma {:induction false} FilterConcat<T>(a: seq<T>, b: seq<T>, keep: T -> bool)
    ensures Filter(a + b, keep) == Filter(a, keep) + Filter(b, keep)
  {
    if |a| == 0 {
      assert a + b == b;
    } else {
      assert (a + b)[1..] == a[1..] + b;
      FilterConcat(a[1..], b, keep);
    }
  }

  /** Filtering keeps a sequence whose every element passes unchanged. */
  lemma {:induction false} FilterKeepsAll<T>(xs: seq<T>, keep: T -> bool)
    requires forall k :: 0 <= k < |xs| ==> keep(xs[k])
    ensures Filter(xs, keep) == xs
  {
    if |xs| > 0 {
      FilterKeepsAll(xs[1..], keep);
    }
  }

  /** Every element of a filtered sequence is an element of the original. */
  lemma {:induction false} FilterElementFrom<T>(xs: seq<T>, keep: T -> bool, k: nat)
    requires k < |Filter(xs, keep)|
    ensures Filter(xs, keep)[k] in xs
  {
    if keep(xs[0]) {
      if k > 0 {
        FilterElementFrom(xs[1..], keep, k - 1);
      }
    } else {
      FilterElementFrom(xs[1..], keep, k);
    }
  }

  /** Joining a sequence in which one piece contains the separator is
      joining the sequence with that piece cut in two at the separator. */
  lemma {:induction false} JoinCutPiece(p: seq<string>, a: string, b: string, q: seq<string>, sep: char)
    ensures Join(p + [a + [sep] + b] + q, sep) == Join(p + [a, b] + q, sep)
    decreases |p|
  {
    if |p| == 0 {
      assert p + [a + [sep] + b] + q == [a + [sep] + b] + q;
      assert p + [a, b] + q == [a, b] + q;
      if |q| == 0 {
        assert [a + [sep] + b] + q == [a + [sep] + b];
        assert [a, b] + q == [a, b];
        assert ([a, b])[1..] == [b];
      } else {
        var xs := [a + [sep] + b] + q;
        var ys := [a, b] + q;
        assert xs[1..] == q;
        assert ys[1..] == [b] + q;
        assert ([b] + q)[1..] == q;
        assert Join(ys, sep) == a + [sep] + (b + [sep] + Join(q, sep));
      }
    } else {
      JoinCutPiece(p[1..], a, b, q, sep);
      assert (p + [a + [sep] + b] + q)[1..] == p[1..] + [a + [sep] + b] + q;
      assert (p + [a, b] + q)[1..] == p[1..] + [a, b] + q;
    }
  }

  /** Prefixing the first piece of a join. */
  lemma JoinExtendFirst(p: string, xs: seq<string>, sep: char)
    requires |xs| >= 1
    ensures Join([p + xs[0]] + xs[1..], sep) == p + Join(xs, sep)
  {
    var ys := [p + xs[0]] + xs[1..];
    assert ys[1..] == xs[1..];
    if |xs| > 1 {
      assert Join(ys, sep) == (p + xs[0]) + [sep] + Join(xs[1..], sep);
    }
  }

  /** Joining the pieces of a split gives back the original string. */
  lemma {:induction false} JoinSplit(s: string, sep: char)
    ensures Join(Split(s, sep), sep) == s
    decreases |s|
  {
    if |s| > 0 {
      var rest := Split(s[1..], sep);
      JoinSplit(s[1..], sep);
      if s[0] == sep {
        var r := [""] + rest;
        assert r[1..] == rest;
        assert Join(r, sep) == "" + [sep] + Join(rest, sep);
        assert s == [s[0]] + s[1..];
      } else {
        JoinExtendFirst([s[0]], rest, sep);
        assert s == [s[0]] + s[1..];
      }
    }
  }

  /** Splitting after a separator-free prefix glues the prefix to the first
      piece. */
  lemma {:induction false} SplitAfterPrefix(a: string, t: string, sep: char)
    requires sep !in a
    ensures Split(a + t, sep) == [a + Split(t, sep)[0]] + Split(t, sep)[1..]
    decreases |a|
  {
    if |a| == 0 {
      assert a + t == t;
      assert a + Split(t, sep)[0] == Split(t, sep)[0];
      assert Split(t, sep) == [Split(t, sep)[0]] + Split(t, sep)[1..];
    } else {
      assert a[0] != sep;
      assert (a + t)[1..] == a[1..] + t;
      SplitAfterPrefix(a[1..], t, sep);
      assert [a[0]] + (a[1..] + Split(t, sep)[0]) == a + Split(t, sep)[0];
    }
  }

  /** Splitting a join of separator-free pieces gives back the pieces. */
  lemma {:induction false} SplitJoin(xs: seq<string>, sep: char)
    requires |xs| >= 1
    requires forall k :: 0 <= k < |xs| ==> sep !in xs[k]
    ensures Split(Join(xs, sep), sep) == xs
  {
    if |xs| == 1 {
      SplitAfterPrefix(xs[0], "", sep);
      assert xs[0] + "" == xs[0];
    } else {
      var tail := Join(xs[1..], sep);
      SplitJoin(xs[1..], sep);
      var t := [sep] + tail;
      assert Split(t, sep) == [""] + xs[1..] by {
        assert t[0] == sep && t[1..] == tail;
      }
      assert Join(xs, sep) == xs[0] + t;
      SplitAfterPrefix(xs[0], t, sep);
      assert xs[0] + "" == xs[0];
    }
  }

  /** Appending one piece to a join. */
  lemma {:induction false} JoinSnoc(xs: seq<string>, y: string, sep: char)
    requires |xs| >= 1
    ensures Join(xs + [y], sep) == Join(xs, sep) + [sep] + y
  {
    if |xs| == 1 {
      assert xs + [y] == [xs[0], y];
    } else {
      assert (xs + [y])[1..] == xs[1..] + [y];
      JoinSnoc(xs[1..], y, sep);
    }
  }

  /** Removing the element at `i` by filtering: when `x` is the only element
      the filter drops, overwriting slot `i` with `x` and filtering removes
      exactly slot `i`; when nothing is dropped, filtering is the identity. */
  lemma FilterAfterUpdate<T>(xs: seq<T>, i: nat, x: T, keep: T -> bool)
    requires i < |xs|
    requires forall k :: 0 <= k < |xs| ==> keep(xs[k])
    ensures !keep(x) ==> Filter(xs[i := x], keep) == xs[..i] + xs[i + 1..]
    ensures keep(x) ==> Filter(xs[i := x], keep) == xs[i := x]
  {
    var ys := xs[i := x];
    assert ys == xs[..i] + [x] + xs[i + 1..];
    FilterConcat(xs[..i] + [x], xs[i + 1..], keep);
    FilterConcat(xs[..i], [x], keep);
    FilterKeepsAll(xs[..i], keep);
    FilterKeepsAll(xs[i + 1..], keep);
    if keep(x) {
      FilterKeepsAll(ys, keep);
    }
  }

  /** The decimal value of a string of ASCII digits. */
  function DecimalValue(s: string): nat
    requires AllDigits(s)
  {
    if |s| == 0 then 0
    else 10 * DecimalValue(s[..|s| - 1]) + (s[|s| - 1] as int - '0' as int)
  }

  function DigitChar(d: nat): (c: char)
    requires d < 10
    ensures IsDigit(c)
  {
    ('0' as int + d) as char
  }

  /** Decimal rendering of a whole number, as template-literal
      interpolation `${n}` renders it. */
  function NatToString(n: nat): (r: string)
    ensures |r| >= 1 && AllDigits(r)
    ensures |r| > 1 ==> r[0] != '0'
  {
    if n < 10 then [DigitChar(n)] else NatToString(n / 10) + [DigitChar(n % 10)]
  }

  /** Rendering a number in decimal and reading it back gives the number. */
  lemma {:induction false} DecimalRoundTrip(n: nat)
    ensures DecimalValue(NatToString(n)) == n
  {
    if n >= 10 {
      var r := NatToString(n);
      assert r[..|r| - 1] == NatToString(n / 10);
      DecimalRoundTrip(n / 10);
    }
  }
}
